=== FILE: README.md ===
# FaceCloth, modelled in Dafny

FaceCloth is a Processing installation. A live camera image is mapped onto a
simulated cloth: an N×N mesh of particles joined by springs. The four corner
particles are *handles* that the user can fix in place, free, drag and throw.
Three controllers drive the same cloth:

- the mouse-and-keyboard sketch on the trunk;
- a serial-port sketch fed by a microcontroller that sends fixed-width ASCII
  frames;
- a multi-touch sketch that links touch points to handles.

The mass-spring integration belongs to an external physics library. What is
modelled here is the discrete layer around it, which covers:

- the mesh builder;
- the handle addressing, with its no-op behaviour for bad ids;
- the bulk reset and fix;
- every controller's state machine.

The project has four modules:

- `ImageCloth` (`cloth.dfy`) is the cloth record: grid, springs, settings and
  display options. It holds the mesh builder and constructor, the mesh-point
  and handle operations, and the bulk reset and fix. Java's truncating
  integer division is written out as `JavaDiv`/`JavaRem`.
- `FaceCloth` (`trunk.dfy`) is the mouse-and-keyboard controller: the
  hit-test selection, the drag in `draw`, the throw on release, and the key
  bindings.
- `FaceClothLive` (`live.dfy`) is the serial controller. Characters build up a
  line buffer, and a newline decodes it. Decoding reads the fields in the
  program's own order, and a short line stops at the first field past its end,
  keeping what was already applied. The reset switch is debounced over
  RESET_HOLD frames, and the pending nudge is applied once per frame.
- `FaceClothMultiTouch` (`multitouch.dfy`) is the multi-touch controller. It
  covers the two-pass link table in `linkPoints`, the lock, clear, fade and
  display buttons, the gallery mode switch with its image counter, the key
  handler and the `.tif` file-name filter.

Conventions:

- Coordinates and gravity are mathematical reals.
- The physics step is an input: the grid the engine produces, of the same
  shape.
- The touch library's `isNear` is a function parameter, and the touch
  collection is a sequence in iteration order.

## Model

| member | source | states |
|---|---|---|
| ImageCloth.MeshGrid | branches/multitouch/src/facecloth/ImageCloth.java:84-86 | The grid is N×N and particle (i, j) is a free particle of mass 0.2 at rest at (i·stepX, j·stepY, 0). |
| ImageCloth.MeshSprings | branches/multitouch/src/facecloth/ImageCloth.java:87-99 | There are exactly 2·N·(N−1) springs. Each joins a particle to its right or lower neighbour, with stiffness 8.0, damping 0.5 and rest length stepX or stepY to match. |
| ImageCloth.MeshSpringsComplete | branches/multitouch/src/facecloth/ImageCloth.java:87-99 | Every pair of horizontal and every pair of vertical grid neighbours is joined by a spring. |
| ImageCloth.ParticleCountSquare | branches/multitouch/src/facecloth/ImageCloth.java:84-86 | An N×N mesh holds exactly N² particles. |
| ImageCloth.Built | branches/multitouch/src/facecloth/ImageCloth.java:56-71 | Mesh extent W + W/N by H/2 − H/N, and samples W/N and H/N, all with Java's truncating division. All four handle colours are the foreground colour, every display option is off, and the lattice and springs are those of the builder. |
| ImageCloth.New | branches/multitouch/src/facecloth/ImageCloth.java:51-74 | No cloth exists exactly when the mesh size is below 1 (the constructor throws). Otherwise every non-corner particle is the builder's, and for N ≥ 2 each corner is a 0.2-mass particle at rest, fixed, at its home position. For N = 1 the single particle is at rest, fixed, at the bottom-right home, which the last move of the reset leaves. |
| ImageCloth.Corner | branches/multitouch/src/facecloth/ImageCloth.java:131-146 | The handle ids 0..3 name the corners (0,0), (N−1,0), (0,N−1), (N−1,N−1). Any other id names none. |
| ImageCloth.CornersDistinct | branches/multitouch/src/facecloth/ImageCloth.java:131-146 | For N ≥ 2 the four handles name four different corners, and every corner is named by some handle. |
| ImageCloth.FixMeshPoint | branches/multitouch/src/facecloth/ImageCloth.java:122-124 | Only that point's fixed flag changes, and it becomes true. |
| ImageCloth.FreeMeshPoint | branches/multitouch/src/facecloth/ImageCloth.java:199-201 | Only that point's fixed flag changes, and it becomes false. |
| ImageCloth.SetMeshPointVelocity | branches/multitouch/src/facecloth/ImageCloth.java:234-236 | Only that point's velocity changes, to the given vector. |
| ImageCloth.ClearMeshPointVelocity | branches/multitouch/src/facecloth/ImageCloth.java:269-271 | Only that point's velocity changes, to zero. |
| ImageCloth.SetMeshPointPosition | branches/multitouch/src/facecloth/ImageCloth.java:336-338 | Only that point's position changes, and reading it back gives the (x, y) that was set. |
| ImageCloth.OffsetMeshPointPosition | branches/multitouch/src/facecloth/ImageCloth.java:374-376 | Only that point's position changes, by exactly (dx, dy, dz). |
| ImageCloth.MeshPointFixedQuery | branches/multitouch/src/facecloth/ImageCloth.java:155-157 | The fixed query (MeshPointIsFixed, meshPointIsFixed) reports true after fixMeshPoint and false after freeMeshPoint, and a velocity change does not affect it. |
| ImageCloth.MeshPointPositionQuery | branches/multitouch/src/facecloth/ImageCloth.java:302-304 | The position query (GetMeshPointPosition, getMeshPointPosition) returns the (x, y) of a set position, and after an offset the old (x, y) plus (dx, dy). |
| ImageCloth.HandleQueriesAgree | branches/multitouch/src/facecloth/ImageCloth.java:165-178 | A handle's fixed query and position query agree with the mesh-point queries at its corner. |
| ImageCloth.FixHandle | branches/multitouch/src/facecloth/ImageCloth.java:131-146 | A valid handle's corner becomes fixed and nothing else changes. Any other id leaves the cloth as it is. |
| ImageCloth.FreeHandle | branches/multitouch/src/facecloth/ImageCloth.java:208-223 | A valid handle's corner becomes free and nothing else changes. Any other id leaves the cloth as it is. |
| ImageCloth.HandleIsFixed | branches/multitouch/src/facecloth/ImageCloth.java:165-178 | True exactly for a valid handle whose corner is fixed. Any other id reports false. |
| ImageCloth.SetHandleVelocity | branches/multitouch/src/facecloth/ImageCloth.java:246-261 | A valid handle's velocity becomes the given vector and nothing else changes. Any other id is a no-op. |
| ImageCloth.ClearHandleVelocity | branches/multitouch/src/facecloth/ImageCloth.java:278-293 | A valid handle's velocity becomes zero and nothing else changes. Any other id is a no-op. |
| ImageCloth.GetHandlePosition | branches/multitouch/src/facecloth/ImageCloth.java:312-325 | A valid handle gives its corner's (x, y). Any other id gives (−1, −1). |
| ImageCloth.SetHandlePosition | branches/multitouch/src/facecloth/ImageCloth.java:348-363 | A valid handle's position becomes (x, y, z) and nothing else changes. Any other id is a no-op. |
| ImageCloth.OffsetHandlePosition | branches/multitouch/src/facecloth/ImageCloth.java:386-401 | A valid handle's position moves by (dx, dy, dz) and nothing else changes. Any other id is a no-op. |
| ImageCloth.FixFreeReported | branches/multitouch/src/facecloth/ImageCloth.java:131-223 | After fixHandle the handle reports fixed exactly when its id is valid. After freeHandle it never reports fixed. |
| ImageCloth.OtherHandlesUntouched | branches/multitouch/src/facecloth/ImageCloth.java:131-401 | For N ≥ 2, an operation on one handle leaves every other handle's flag, particle and position as they were. |
| ImageCloth.SetThenGetPosition | branches/multitouch/src/facecloth/ImageCloth.java:312-363 | Setting a handle's position and reading it back yields (x, y). |
| ImageCloth.OffsetTwice | branches/multitouch/src/facecloth/ImageCloth.java:386-401 | Two offsets equal one offset by their sum. |
| ImageCloth.ToggleHandle | trunk/src/faceCloth.java:95-101 | A fixed handle is freed and a free one is fixed. Only its corner changes, and only in its flag. |
| ImageCloth.ToggleTwice | trunk/src/faceCloth.java:95-126 | Toggling the same handle twice restores the cloth. |
| ImageCloth.MoveHomesFrom | branches/multitouch/src/facecloth/ImageCloth.java:105-114 | Handles k..3 are moved home in order. Only corner positions change, and the earlier handles are kept. On a one-point mesh the last move wins. |
| ImageCloth.ResetHandles | branches/multitouch/src/facecloth/ImageCloth.java:105-114 | Only corner positions change. For N ≥ 2 each handle ends MARGIN pixels in from its corner of the applet, with flags and velocities kept. |
| ImageCloth.FixFrom | branches/multitouch/src/facecloth/ImageCloth.java:183-192 | Handles k..3 are fixed in order. Only corner flags change, and the earlier handles are kept. |
| ImageCloth.FixHandles | branches/multitouch/src/facecloth/ImageCloth.java:183-192 | Only corner flags change, and every handle then reports fixed. |
| ImageCloth.ResetThenFix | branches/multitouch/src/facecloth/ImageCloth.java:71-73 | Resetting and then fixing puts each corner home and fixed, with its velocity kept; for N = 1 the single particle ends fixed at the bottom-right home. Every other particle and every setting is unchanged. |
| ImageCloth.ResetAndFix | trunk/src/faceCloth.java:152-160 | The space-bar reset zeroes gravity and sends the corners home, fixed (for N = 1, the single particle to the bottom-right home). Nothing else changes. |
| ImageCloth.SetHandleColours | branches/multitouch/src/facecloth/ImageCloth.java:411-416 | The colours go into slots TL, TR, BL, BR and nothing else changes. |
| ImageCloth.SetGravity | branches/multitouch/src/facecloth/ImageCloth.java:504 | Only gravity changes, to the given value, and the cloth stays valid. |
| ImageCloth.Step | branches/multitouch/src/facecloth/ImageCloth.java:421-423 | A physics step replaces only the particle grid, keeping its shape. Springs, settings and display options are kept. |
| ImageCloth.DisplayOptionsRoundTrip | branches/multitouch/src/facecloth/ImageCloth.java:506-511 | Each display setter is read back by its getter and leaves the other options alone. |
| FaceCloth.Init | trunk/src/faceCloth.java:18-25 | The sketch starts with no handle selected, the frame cleared and gravity 0. |
| FaceCloth.SetupCloth | trunk/src/faceCloth.java:28-42 | The 20×20 cloth over a 320×240 capture exists, with all four corners fixed at their home positions. |
| FaceCloth.MousePressed | trunk/src/faceCloth.java:66-81 | Selects the lowest handle strictly within 20 pixels of the click in both directions. The result is −1 exactly when no handle is in range. |
| FaceCloth.MouseReleased | trunk/src/faceCloth.java:84-90 | The selected handle's particle is the old one with the mouse's last displacement as its velocity; its position, lock and mass are kept and no other particle changes. Then no handle is selected. |
| FaceCloth.Draw | trunk/src/faceCloth.java:45-57 | After the physics step the selected handle's particle is the stepped one moved under the mouse and at rest, with its lock and mass kept. With no selection the cloth is just the stepped cloth. |
| FaceCloth.KeyPressed | trunk/src/faceCloth.java:93-161 | Every key keeps the cloth valid, the mesh shape, the springs and the selection. |
| FaceCloth.LockKey | trunk/src/faceCloth.java:95-126 | Key '1'..'4' flips exactly handle 0..3's lock and touches nothing else. |
| FaceCloth.ToggleKeyTwice | trunk/src/faceCloth.java:95-149 | Pressing a lock key or a display key twice restores the state. |
| FaceCloth.DisplayKeys | trunk/src/faceCloth.java:138-149 | 'z', 'x', 'c' and 'v' each flip exactly one of clearFrame, drawHandles, drawOutlines and drawMesh. |
| FaceCloth.GravityKeys | trunk/src/faceCloth.java:129-135 | UP and DOWN change gravity by ±0.1 and hand the new value to the cloth. Together they undo each other. |
| FaceCloth.SpaceKey | trunk/src/faceCloth.java:152-160 | Space zeroes gravity and sends the corners home, fixed (for N = 1, the single particle to the bottom-right home). No other particle moves, and the selection is kept. |
| FaceClothLive.Init | branches/live/src/faceCloth_Live/faceCloth_Live.java:59-67 | Starts with an empty buffer, a zero reset count and handle 0 selected (the int default), in a valid state. |
| FaceClothLive.Setup | branches/live/src/faceCloth_Live/faceCloth_Live.java:71-93 | The 20×20 cloth has the four configured handle colours and all corners fixed. |
| FaceClothLive.ConvertAndScale | branches/live/src/faceCloth_Live/faceCloth_Live.java:198-201 | A digit maps into [−8, 10], and the result is 0 exactly for '4'. |
| FaceClothLive.ConvertAndScaleInverse | branches/live/src/faceCloth_Live/faceCloth_Live.java:198-201 | The scaled value is even, and halving it and adding back the midpoint recovers the character. |
| FaceClothLive.ConvertAndScaleMonotone | branches/live/src/faceCloth_Live/faceCloth_Live.java:198-201 | The scaling is strictly increasing, so it is injective. |
| FaceClothLive.ApplyLock | branches/live/src/faceCloth_Live/faceCloth_Live.java:142-152 | A lock field fixes its handle exactly when it is '0'. Only that corner's flag changes. |
| FaceClothLive.SelectHandle | branches/live/src/faceCloth_Live/faceCloth_Live.java:171-174 | '1', '2' and '3' select handles 0, 1 and 2 (each an if-and-only-if). Anything else selects 3. |
| FaceClothLive.ReachesLocks | branches/live/src/faceCloth_Live/faceCloth_Live.java:142-152 | Decoding reaches lock read k exactly when the line is longer than k. |
| FaceClothLive.ReachesOptions | branches/live/src/faceCloth_Live/faceCloth_Live.java:155-174 | The option and selection reads are reached exactly when the line is longer than the largest field read so far. Field 5 is read before field 4. |
| FaceClothLive.ReachesValues | branches/live/src/faceCloth_Live/faceCloth_Live.java:177-195 | The delta reads need lines longer than 11 and 12. Gravity and then the reset field both need a full 14-character line. |
| FaceClothLive.DecodeGravity | branches/live/src/faceCloth_Live/faceCloth_Live.java:181-184 | Gravity becomes the scaled field. The cloth is told only when the value changed, and otherwise nothing changes. |
| FaceClothLive.NextCount | branches/live/src/faceCloth_Live/faceCloth_Live.java:187-194 | A field other than '0' restarts the counter at 0. A '0' advances it by one modulo RESET_HOLD, so it stays within [0, RESET_HOLD). |
| FaceClothLive.HoldCounts | branches/live/src/faceCloth_Live/faceCloth_Live.java:187-194 | After m consecutive '0' fields the counter has advanced by m modulo 4. |
| FaceClothLive.HoldBroken | branches/live/src/faceCloth_Live/faceCloth_Live.java:187-188 | Whatever run of fields came before, one field other than '0' leaves the counter at 0. |
| FaceClothLive.HoldFires | branches/live/src/faceCloth_Live/faceCloth_Live.java:187-194 | Holding the switch from rest, the (m+1)-th '0' fires the reset exactly when m+1 is a multiple of 4. |
| FaceClothLive.DecodeReset | branches/live/src/faceCloth_Live/faceCloth_Live.java:187-194 | The counter follows NextCount. The corners go home exactly on the fourth consecutive '0'; otherwise the cloth is untouched. |
| FaceClothLive.ApplyField | branches/live/src/faceCloth_Live/faceCloth_Live.java:142-194 | A single field read keeps the mesh shape, the springs, the buffer and the applet size. |
| FaceClothLive.ApplyFieldOptions | branches/live/src/faceCloth_Live/faceCloth_Live.java:155-168 | Each option read sets its own option from "== '0'", and every other read leaves that option alone. |
| FaceClothLive.ApplyFieldValues | branches/live/src/faceCloth_Live/faceCloth_Live.java:171-184 | The selection, delta and gravity reads set exactly their own value, and the cloth's gravity follows. |
| FaceClothLive.ApplyFieldGrid | branches/live/src/faceCloth_Live/faceCloth_Live.java:142-194 | A lock read changes only its corner's flag, and a held reset read moves the corners home. No other read touches the grid. |
| FaceClothLive.ProcessSerial | branches/live/src/faceCloth_Live/faceCloth_Live.java:138-195 | Decoding a line keeps the mesh shape, the springs and the buffer. |
| FaceClothLive.DecodeFromFrameOptions | branches/live/src/faceCloth_Live/faceCloth_Live.java:155-159 | clearFrame and drawHandles come from fields 5 and 4 when decoding gets that far. Otherwise they keep their values. |
| FaceClothLive.DecodeFromMeshOptions | branches/live/src/faceCloth_Live/faceCloth_Live.java:164-168 | drawOutlines and drawMesh, likewise. |
| FaceClothLive.DecodeFromSelection | branches/live/src/faceCloth_Live/faceCloth_Live.java:171-178 | The selection and the deltas, likewise. |
| FaceClothLive.DecodeFromGravity | branches/live/src/faceCloth_Live/faceCloth_Live.java:181-184 | Gravity, likewise, with the cloth kept in step. |
| FaceClothLive.DecodeFromCount | branches/live/src/faceCloth_Live/faceCloth_Live.java:187-194 | The counter moves only when the reset read is reached. |
| FaceClothLive.DecodeFromLocks | branches/live/src/faceCloth_Live/faceCloth_Live.java:142-152 | Each lock is set from its field when reached, and kept otherwise. |
| FaceClothLive.DecodeFromInterior | branches/live/src/faceCloth_Live/faceCloth_Live.java:138-195 | Decoding never moves a particle that is not a corner. |
| FaceClothLive.DecodeFromHandles | branches/live/src/faceCloth_Live/faceCloth_Live.java:142-194 | Handles change only in their locks, unless a held reset completes. Then they also go home. |
| FaceClothLive.DecodeFromConsistent | branches/live/src/faceCloth_Live/faceCloth_Live.java:138-195 | Decoding keeps the counter in range, a valid handle selected and the cloth's gravity in step. |
| FaceClothLive.FrameLocks | branches/live/src/faceCloth_Live/faceCloth_Live.java:142-152 | For N ≥ 2, handle k is fixed exactly when field k is '0' if the line has it. Otherwise its lock is unchanged. |
| FaceClothLive.FrameOptions | branches/live/src/faceCloth_Live/faceCloth_Live.java:155-168 | clearFrame, drawHandles, drawOutlines and drawMesh are true exactly when fields 5, 4, 7 and 8 are '0', when the line reaches them. |
| FaceClothLive.FrameSelection | branches/live/src/faceCloth_Live/faceCloth_Live.java:171-178 | The selection comes from field 9 and the deltas are the scaled fields 11 and 12, when present. |
| FaceClothLive.FrameGravity | branches/live/src/faceCloth_Live/faceCloth_Live.java:181-184 | On a full line gravity is the scaled field 13, and the cloth always agrees with it. |
| FaceClothLive.FrameReset | branches/live/src/faceCloth_Live/faceCloth_Live.java:187-194 | On a full line the counter follows field 10. The handles go home exactly when a held reset completes, and non-corner particles never move. |
| FaceClothLive.EmptyLine | branches/live/src/faceCloth_Live/faceCloth_Live.java:138-142 | An empty line throws at the first read and changes nothing. |
| FaceClothLive.SerialEvent | branches/live/src/faceCloth_Live/faceCloth_Live.java:124-135 | A newline yields exactly the state that decoding the buffered line gives, with the buffer emptied, even when decoding stopped short. Any other character is appended and nothing else changes. |
| FaceClothLive.Feed | branches/live/src/faceCloth_Live/faceCloth_Live.java:124-135 | A run of characters never puts a newline into the buffer. |
| FaceClothLive.FeedPartialLine | branches/live/src/faceCloth_Live/faceCloth_Live.java:132-134 | Characters without a newline only accumulate in the buffer. |
| FaceClothLive.FeedLine | branches/live/src/faceCloth_Live/faceCloth_Live.java:124-135 | A line and a newline are decoded together with what was buffered, and what follows starts a fresh line. |
| FaceClothLive.MoveSelectedHandle | branches/live/src/faceCloth_Live/faceCloth_Live.java:204-220 | The selected handle moves by four times the pending deltas and ends at rest. Only its corner changes, and the deltas are consumed. |
| FaceClothLive.MoveSelectedHandleIdempotent | branches/live/src/faceCloth_Live/faceCloth_Live.java:204-220 | Once the deltas are consumed, moving again changes nothing. |
| FaceClothLive.Draw | branches/live/src/faceCloth_Live/faceCloth_Live.java:96-115 | After a frame no delta is pending. |
| FaceClothLive.FeedKeepsValid | branches/live/src/faceCloth_Live/faceCloth_Live.java:124-135 | Any run of characters keeps the state valid. |
| FaceClothLive.SerialEventKeepsValid | branches/live/src/faceCloth_Live/faceCloth_Live.java:124-135 | One character keeps the state valid. |
| FaceClothLive.DrawKeepsValid | branches/live/src/faceCloth_Live/faceCloth_Live.java:96-115 | A frame keeps the state valid. |
| FaceClothMultiTouch.Init | branches/multitouch/src/FaceClothMultiTouch.java:144-147 | The table starts as four −1 entries, with the frame cleared and not faded, in SNAPSHOT mode. |
| FaceClothMultiTouch.Setup | branches/multitouch/src/FaceClothMultiTouch.java:129 | The 20×20 cloth starts with all corners fixed and the state valid. |
| FaceClothMultiTouch.IndexOfId | branches/multitouch/src/FaceClothMultiTouch.java:391 | The result is the first position holding the id, or −1 exactly when no touch point has it. |
| FaceClothMultiTouch.Refreshed | branches/multitouch/src/FaceClothMultiTouch.java:389-400 | A slot is kept exactly when it is −1 or its touch point still exists. Otherwise it becomes −1. |
| FaceClothMultiTouch.RefreshSlot | branches/multitouch/src/FaceClothMultiTouch.java:389-401 | A tracked handle moves to its touch point's centre, at rest, and only its corner changes. A lost link becomes −1. |
| FaceClothMultiTouch.RefreshFrom | branches/multitouch/src/FaceClothMultiTouch.java:387-403 | Pass 1 drops exactly the links whose touch point is gone and moves exactly the tracked handles. Non-corner particles are kept. |
| FaceClothMultiTouch.ScanFrom | branches/multitouch/src/FaceClothMultiTouch.java:416-438 | The scan changes only slot i, and only to the id of a near touch point that no other slot holds. |
| FaceClothMultiTouch.MakeLinksFrom | branches/multitouch/src/FaceClothMultiTouch.java:410-440 | Pass 2 assigns only slots that were −1, each to a touch point near its handle's position. It keeps the table free of duplicates. |
| FaceClothMultiTouch.LinkPoints | branches/multitouch/src/FaceClothMultiTouch.java:381-441 | Links whose touch point survives are never replaced, and duplicates never appear. New links go to near touch points. Tracked handles sit at their touch point's centre, at rest, and nothing else moves. |
| FaceClothMultiTouch.LastQualifying | branches/multitouch/src/FaceClothMultiTouch.java:416-437 | The reference choice: the last touch point that is unlinked and near, or −1 when none is. |
| FaceClothMultiTouch.ScanChoosesLast | branches/multitouch/src/FaceClothMultiTouch.java:416-437 | With unique ids other than −1, the scan links exactly the last qualifying touch point, because there is no break. |
| FaceClothMultiTouch.MakeLinksSlot | branches/multitouch/src/FaceClothMultiTouch.java:412-437 | A free slot gets the last touch point that qualifies against the table as it stands at its turn. |
| FaceClothMultiTouch.Pre | branches/multitouch/src/FaceClothMultiTouch.java:324-335 | Outside SNAPSHOT mode nothing changes. In SNAPSHOT mode the cloth is stepped and then linked: non-corner particles are the stepped ones, and links whose touch point survives are kept. For N ≥ 2, tracked handles are the stepped particle at their touch point's centre, at rest, untracked handles are as stepped, and new links are near the stepped handle. The state stays valid. |
| FaceClothMultiTouch.ToggleLinkedFrom | branches/multitouch/src/FaceClothMultiTouch.java:521-531 | Flips the locks of the linked handles from slot i on. Only those corners' flags change. |
| FaceClothMultiTouch.ToggleHandleLock | branches/multitouch/src/FaceClothMultiTouch.java:519-532 | For N ≥ 2, exactly the handles whose slot is not −1 change lock. Nothing but flags changes. |
| FaceClothMultiTouch.ToggleHandleLockTwice | branches/multitouch/src/FaceClothMultiTouch.java:519-532 | Pressing the lock button twice with the same links restores the state. |
| FaceClothMultiTouch.ToggleClearFrame | branches/multitouch/src/FaceClothMultiTouch.java:535-538 | Flips clearFrame, and fading is off whenever clearing ends up on. The two are never both on. |
| FaceClothMultiTouch.ToggleFadeFrame | branches/multitouch/src/FaceClothMultiTouch.java:539-542 | Flips fadeFrame, and clearing is off whenever fading ends up on. The two are never both on. |
| FaceClothMultiTouch.ClearFadeInteraction | branches/multitouch/src/FaceClothMultiTouch.java:535-542 | Each of the two buttons undoes itself exactly when the other option was off. |
| FaceClothMultiTouch.ToggleDrawHandles | branches/multitouch/src/FaceClothMultiTouch.java:543 | Flips the applet's drawHandles and keeps the state valid. FaceClothMultiTouch.DisplayTogglesUndo states that it undoes itself. |
| FaceClothMultiTouch.ToggleDrawOutlines | branches/multitouch/src/FaceClothMultiTouch.java:546 | Flips the cloth's drawOutlines and keeps the state valid. FaceClothMultiTouch.DisplayTogglesUndo states that it undoes itself and keeps drawMesh. |
| FaceClothMultiTouch.ToggleDrawMesh | branches/multitouch/src/FaceClothMultiTouch.java:547 | Flips the cloth's drawMesh and keeps the state valid. FaceClothMultiTouch.DisplayTogglesUndo states that it undoes itself and keeps drawOutlines. |
| FaceClothMultiTouch.DisplayTogglesUndo | branches/multitouch/src/FaceClothMultiTouch.java:543-547 | The handle, outline and mesh buttons each undo themselves, and the outline and mesh buttons leave each other's option alone. |
| FaceClothMultiTouch.KeyPressed | branches/multitouch/src/FaceClothMultiTouch.java:462-482 | UP and DOWN change gravity by ±0.1 and hand it to the cloth. Space zeroes gravity and changes nothing else in the cloth but its grid. Other keys change nothing, and the state stays valid. |
| FaceClothMultiTouch.SpaceKey | branches/multitouch/src/FaceClothMultiTouch.java:474-481 | Space zeroes gravity and sends the corners home, fixed (for N = 1, the single particle to the bottom-right home). No other particle moves, and the springs, display options, colours, drag and every applet field other than gravity are kept. |
| FaceClothMultiTouch.GravityKeysUndo | branches/multitouch/src/FaceClothMultiTouch.java:464-469 | UP then DOWN restores the state. |
| FaceClothMultiTouch.SaveScreensToDisk | branches/multitouch/src/FaceClothMultiTouch.java:446-454 | Each present thumbnail is saved under the next index, in order. The indices used are consecutive and one per image, and the counter advances by their number. |
| FaceClothMultiTouch.ToggleGallery | branches/multitouch/src/FaceClothMultiTouch.java:558-566 | The mode becomes (mode + 1) % 2, alternating SNAPSHOT and GALLERY. Only leaving SNAPSHOT saves the thumbnails. |
| FaceClothMultiTouch.ImageFilter | branches/multitouch/src/FaceClothMultiTouch.java:306-310 | An empty name throws. Otherwise the name is accepted exactly when it does not start with '.' and its last four characters lower-case to ".tif". |
| FaceClothMultiTouch.TifNames | branches/multitouch/src/FaceClothMultiTouch.java:306-310 | A visible stem with ".tif" or ".TIF" is accepted, and one with ".tiff" is refused. |

## Left out

- The physics integration (`advanceTime`, spring, gravity and drag forces) belongs to an external library. A step is an input grid of the same shape, with no promised effect.
- Rendering is left out: the cloth's and the sketches' `draw` output, handle glyphs, textures and the frame-buffer set-up. The display options are modelled only as flags.
- All I/O is left out: video capture, opening and reading the serial port, OSC messages (the multi-touch sketch's mouse handlers), listing the image folder and saving images.
- The gallery's starting image index is a parameter of `Init`/`Setup`. It is not parsed from the folder listing, so a folder without images, which would throw there, is not modelled.
- Widget construction and the thumbnail gestures (`buildGestures`, `buildDashboard`, `buildSlideshow`, `handleThumbnailRelease`, the dock toggles, `clearThumbnails`) are thin glue over external libraries and are left out. Thumbnails appear only as "present or not".
- `branches/multitouch/src/Target.java` is a visual marker only.
- Floats are modelled as reals. The 0.1 gravity increment, the int-to-float casts and float equality in the gravity comparison are exact here. Java `int` overflow cannot happen at the sizes involved and is not modelled.
- The physics library's `makeFixed`, `moveTo` and velocity calls are taken to change only the named field. Whatever else the library does (for instance to a fixed particle's velocity) is not modelled.
- The mesh-point operations require in-range indices. The Java code throws on others, and no controller passes such indices.
- `String.toLowerCase` is modelled for ASCII letters only.
- `TouchPoint.isNear`, `getCenter` and the touch collection's order are external. They become the `near` parameter and the sequence order. `indexOfID` is modelled as the first match.
- FaceClothLive.FrameLocks: states the lock fields only for meshes of size two or more. On a one-point mesh all four handles share one particle, and the last lock field read wins.
- FaceClothLive.DecodeFromHandles: stated only for meshes of size two or more, for the same reason. FaceClothLive.FrameReset inherits the restriction for its handle clause.
- FaceClothMultiTouch.LinkPoints: the near-touch and handle-position clauses are stated only for meshes of size two or more. On a one-point mesh, moving a tracked handle also moves the others.
- FaceClothMultiTouch.Pre: inherits the size-two-or-more restriction of FaceClothMultiTouch.LinkPoints for its handle and near-touch clauses.
- FaceClothMultiTouch.ToggleHandleLock: the per-handle flip is stated only for meshes of size two or more.
- FaceClothMultiTouch.ToggleLinkedFrom: the per-handle flip is stated only for meshes of size two or more. On a one-point mesh the single particle flips once per linked slot, which is not stated.
- FaceClothMultiTouch.RefreshFrom: the clause that tracked handles move to their touch point's centre is stated only for meshes of size two or more. On a one-point mesh the last tracked slot's move wins, which is not stated.
- FaceClothLive.DecodeFromLocks: requires a mesh of size two or more, like FaceClothLive.FrameLocks. On a one-point mesh the last lock field read decides the single particle's flag, which is not stated.
- FaceClothMultiTouch.ScanChoosesLast: assumes touch ids are unique and not −1, which the touch library does not promise in its interface.
- FaceClothLive.ProcessSerial: its own contract states only what one line keeps. What each field does is stated by the FaceClothLive.Frame* lemmas.
- FaceCloth.KeyPressed: its own contract states only what every key keeps. FaceCloth.LockKey, FaceCloth.DisplayKeys, FaceCloth.GravityKeys and FaceCloth.SpaceKey state what each key does.
- FaceClothLive.Draw: its own contract states only that the deltas are consumed. FaceClothLive.MoveSelectedHandle and FaceClothLive.DrawKeepsValid give the rest.
- FaceClothMultiTouch.ToggleHandleLockTwice: stated only for meshes of size two or more. On a one-point mesh two linked handles flip the same particle.
- FaceClothMultiTouch.SaveScreensToDisk: the slideshow's thumbnail count is the length of the `thumbs` argument, not a constant.

=== FILE: cloth.dfy ===
/** The deformable cloth: an N×N grid of point masses joined by horizontal and
    vertical springs, whose four corner particles are addressable as "handles".

    The mass-spring physics engine behind the cloth is not modelled: a physics
    step is an opaque replacement of the particle grid by one of the same shape.
    Coordinates are mathematical reals, not IEEE floats. */
module ImageCloth {

  // Handle identifiers.
  const TOP_LEFT: int := 0
  const TOP_RIGHT: int := 1
  const BOTTOM_LEFT: int := 2
  const BOTTOM_RIGHT: int := 3

  /** Distance of the reset handle positions from the applet's edges. */
  const MARGIN: int := 20

  // Constants of the mesh builder.
  const PARTICLE_MASS: real := 0.2
  const SPRING_STIFFNESS: real := 8.0
  const SPRING_DAMPING: real := 0.5

  datatype Option<T> = None | Some(value: T)

  /*---------------------------------------------------------------------------
   * Java integer arithmetic
   *-------------------------------------------------------------------------*/

  function IntAbs(x: int): nat { if x < 0 then -x else x }

  /** Java's `/` on `int`: the quotient truncated toward zero. */
  function JavaDiv(a: int, b: int): int
    requires b != 0
  {
    var q := IntAbs(a) / IntAbs(b);
    if (a < 0) == (b < 0) then q else -q
  }

  /** Java's `%` on `int`: the remainder takes the sign of the dividend. */
  function JavaRem(a: int, b: int): int
    requires b != 0
  {
    var m := IntAbs(a) % IntAbs(b);
    if a < 0 then -m else m
  }

  /** Java's `/` and `%` agree with each other the way the Java language
      specification demands: the quotient times the divisor plus the remainder
      is the dividend, the remainder is smaller than the divisor in magnitude
      and never has the opposite sign of the dividend. On a non-negative
      dividend and a positive divisor they coincide with Dafny's operators. */
  lemma JavaDivRem(a: int, b: int)
    requires b != 0
    ensures a == JavaDiv(a, b) * b + JavaRem(a, b)
    ensures IntAbs(JavaRem(a, b)) < IntAbs(b)
    ensures a > 0 ==> JavaRem(a, b) >= 0
    ensures a < 0 ==> JavaRem(a, b) <= 0
    ensures a >= 0 && b > 0 ==> JavaDiv(a, b) == a / b && JavaRem(a, b) == a % b
  {
    var q := IntAbs(a) / IntAbs(b);
    var m := IntAbs(a) % IntAbs(b);
    assert IntAbs(a) == q * IntAbs(b) + m;
    MulNeg(q, b);
    if a < 0 && b < 0 {
      assert IntAbs(b) == -b && q * IntAbs(b) == -(q * b);
      assert a == q * b - m;
    } else if a < 0 {
      assert IntAbs(b) == b && (-q) * b == -(q * b);
      assert a == (-q) * b - m;
    } else if b < 0 {
      assert IntAbs(b) == -b && (-q) * b == q * IntAbs(b);
      assert a == (-q) * b + m;
    }
  }

  lemma MulNeg(q: int, b: int)
    ensures q * (-b) == -(q * b) && (-q) * b == -(q * b)
  {
  }

  /** Processing's `color(r, g, b)`: an opaque ARGB colour packed into a
      signed 32-bit int. */
  function Rgb(red: int, green: int, blue: int): (c: int)
    requires 0 <= red < 256 && 0 <= green < 256 && 0 <= blue < 256
    ensures -0x8000_0000 <= c < 0
    ensures (c + 0x1_0000_0000) % 0x100 == blue
    ensures (c + 0x1_0000_0000) / 0x100_0000 == 0xFF
  {
    0xFF00_0000 + red * 0x1_0000 + green * 0x100 + blue - 0x1_0000_0000
  }

  /*---------------------------------------------------------------------------
   * Data model
   *-------------------------------------------------------------------------*/

  datatype Vec3 = Vec3(x: real, y: real, z: real)
  {
    function Plus(d: Vec3): Vec3 { Vec3(x + d.x, y + d.y, z + d.z) }
  }

  const ZERO: Vec3 := Vec3(0.0, 0.0, 0.0)

  /** The 2D vector a position query returns. */
  datatype Vec2 = Vec2(x: real, y: real)

  datatype Particle = Particle(mass: real, pos: Vec3, vel: Vec3, fixed: bool)

  /** A mesh index: column `i` (x direction), row `j` (y direction). */
  datatype Index = Index(i: int, j: int)

  datatype Spring = Spring(a: Index, b: Index, stiffness: real, damping: real, rest: real)

  /** Particles indexed `grid[i][j]`. */
  type Grid = seq<seq<Particle>>

  predicate Shaped(g: Grid, n: nat)
  {
    |g| == n && forall i :: 0 <= i < n ==> |g[i]| == n
  }

  predicate InMesh(n: nat, at: Index)
  {
    0 <= at.i < n && 0 <= at.j < n
  }

  /** The cloth state. `appletWidth`/`appletHeight` are the dimensions of the
      hosting applet, read by `ResetHandles`; `gravity` and `drag` are the
      settings handed to the physics engine. */
  datatype Cloth = Cloth(
    appletWidth: int, appletHeight: int,
    foreground: int, handleColours: seq<int>,
    drawHandles: bool, drawOutlines: bool, drawMesh: bool,
    gravity: real, drag: real,
    n: nat, meshWidth: real, meshHeight: real, sampleW: int, sampleH: int,
    grid: Grid, springs: seq<Spring>)
  {
    predicate Valid()
    {
      n >= 1 && Shaped(grid, n) && |handleColours| == 4
    }

    function At(at: Index): Particle
      requires Valid() && InMesh(n, at)
    {
      grid[at.i][at.j]
    }
  }

  /** `r` is `c` except possibly for the particle at `at`. */
  ghost predicate SameExcept(c: Cloth, r: Cloth, at: Index)
    requires c.Valid()
  {
    && r.(grid := c.grid) == c
    && Shaped(r.grid, c.n)
    && forall i, j :: 0 <= i < c.n && 0 <= j < c.n && Index(i, j) != at ==> r.grid[i][j] == c.grid[i][j]
  }

  /** `r` is `c` with the same particles in the same places, except that their
      fixed flags may differ. */
  ghost predicate SameButFlags(c: Cloth, r: Cloth)
    requires c.Valid()
  {
    && r.(grid := c.grid) == c
    && Shaped(r.grid, c.n)
    && forall i, j :: 0 <= i < c.n && 0 <= j < c.n ==> r.grid[i][j] == c.grid[i][j].(fixed := r.grid[i][j].fixed)
  }

  lemma SameButFlagsTrans(a: Cloth, b: Cloth, c: Cloth)
    requires a.Valid() && b.Valid() && SameButFlags(a, b) && SameButFlags(b, c)
    ensures SameButFlags(a, c)
  {
  }

  predicate IsCorner(n: nat, i: int, j: int)
  {
    (i == 0 || i == n - 1) && (j == 0 || j == n - 1)
  }

  /*---------------------------------------------------------------------------
   * Mesh builder
   *-------------------------------------------------------------------------*/

  /** The particle the builder places at grid position (i, j). */
  function LatticeParticle(i: int, j: int, stepX: real, stepY: real): Particle
  {
    Particle(PARTICLE_MASS, Vec3(i as real * stepX, j as real * stepY, 0.0), ZERO, false)
  }

  function MeshGrid(n: nat, stepX: real, stepY: real): (g: Grid)
    ensures Shaped(g, n)
    ensures forall i, j :: 0 <= i < n && 0 <= j < n ==> g[i][j] == LatticeParticle(i, j, stepX, stepY)
  {
    seq(n, i requires 0 <= i < n => seq(n, j requires 0 <= j < n => LatticeParticle(i, j, stepX, stepY)))
  }

  /** Horizontal springs (i-1, j)–(i, j), in the builder's order: column-major,
      one per particle with i > 0. */
  function HorizontalSprings(n: nat, stepX: real): seq<Spring>
    requires n >= 1
  {
    seq((n - 1) * n, k requires 0 <= k < (n - 1) * n =>
      Spring(Index(k / n, k % n), Index(k / n + 1, k % n), SPRING_STIFFNESS, SPRING_DAMPING, stepX))
  }

  /** Vertical springs (i, j-1)–(i, j), in the builder's order: column-major,
      one per particle with j > 0. */
  function VerticalSprings(n: nat, stepY: real): seq<Spring>
    requires n >= 1
  {
    if n == 1 then []
    else
      seq(n * (n - 1), k requires 0 <= k < n * (n - 1) =>
        Spring(Index(k / (n - 1), k % (n - 1)), Index(k / (n - 1), k % (n - 1) + 1), SPRING_STIFFNESS, SPRING_DAMPING, stepY))
  }

  /** A spring of the mesh: it joins two grid neighbours, to the right or
      below, with the builder's constants and the matching rest length. */
  predicate GridEdge(n: nat, s: Spring, stepX: real, stepY: real)
  {
    && InMesh(n, s.a) && InMesh(n, s.b)
    && s.stiffness == SPRING_STIFFNESS && s.damping == SPRING_DAMPING
    && ((s.b == Index(s.a.i + 1, s.a.j) && s.rest == stepX)
        || (s.b == Index(s.a.i, s.a.j + 1) && s.rest == stepY))
  }

  /** A product with a positive factor that lies strictly between -n and n
      has a zero cofactor. */
  lemma SmallMultiple(a: int, n: int)
    requires n > 0 && -n < a * n < n
    ensures a == 0
  {
  }

  lemma PositiveCofactor(a: int, n: int)
    requires n > 0 && a * n > 0
    ensures a > 0
  {
  }

  lemma QuotientBound(k: int, m: int, n: int)
    requires n > 0 && 0 <= k < m * n
    ensures 0 <= k / n < m
  {
    var d := k / n;
    assert k == d * n + k % n;
    assert (m - d) * n == m * n - d * n;
    PositiveCofactor(m - d, n);
  }

  lemma QuotientOf(q: int, r: int, n: int)
    requires n > 0 && 0 <= r < n && q >= 0
    ensures (q * n + r) / n == q && (q * n + r) % n == r
  {
    var k := q * n + r;
    var d := k / n;
    var m := k % n;
    assert k == d * n + m;
    assert (d - q) * n == r - m;
    SmallMultiple(d - q, n);
  }

  function MeshSprings(n: nat, stepX: real, stepY: real): (s: seq<Spring>)
    requires n >= 1
    ensures |s| == 2 * n * (n - 1)
    ensures forall k :: 0 <= k < |s| ==> GridEdge(n, s[k], stepX, stepY)
  {
    var h := HorizontalSprings(n, stepX);
    var v := VerticalSprings(n, stepY);
    HorizontalEdges(n, stepX, stepY);
    VerticalEdges(n, stepX, stepY);
    assert |h| + |v| == 2 * n * (n - 1) by {
      assert |h| == (n - 1) * n;
    }
    h + v
  }

  lemma HorizontalEdges(n: nat, stepX: real, stepY: real)
    requires n >= 1
    ensures forall k :: 0 <= k < |HorizontalSprings(n, stepX)| ==> GridEdge(n, HorizontalSprings(n, stepX)[k], stepX, stepY)
  {
    var h := HorizontalSprings(n, stepX);
    forall k | 0 <= k < |h| ensures GridEdge(n, h[k], stepX, stepY) {
      QuotientBound(k, n - 1, n);
    }
  }

  lemma VerticalEdges(n: nat, stepX: real, stepY: real)
    requires n >= 1
    ensures forall k :: 0 <= k < |VerticalSprings(n, stepY)| ==> GridEdge(n, VerticalSprings(n, stepY)[k], stepX, stepY)
  {
    var v := VerticalSprings(n, stepY);
    forall k | 0 <= k < |v| ensures GridEdge(n, v[k], stepX, stepY) {
      VerticalEdgeAt(n, stepX, stepY, k);
    }
  }

  lemma VerticalEdgeAt(n: nat, stepX: real, stepY: real, k: int)
    requires n >= 2 && 0 <= k < n * (n - 1)
    ensures GridEdge(n, VerticalSprings(n, stepY)[k], stepX, stepY)
  {
    var q, r := k / (n - 1), k % (n - 1);
    QuotientBound(k, n, n - 1);
    assert 0 <= q < n && 0 <= r < n - 1;
    var sp := VerticalSprings(n, stepY)[k];
    assert sp == Spring(Index(q, r), Index(q, r + 1), SPRING_STIFFNESS, SPRING_DAMPING, stepY);
  }

  lemma MulMono(a: int, b: int, n: int)
    requires a <= b && n >= 0
    ensures a * n <= b * n
  {
    assert b * n - a * n == (b - a) * n;
  }

  /** Row-major position `q * n + r` of a cell of an m×n block lies inside it. */
  lemma CellInBlock(q: int, r: int, m: int, n: int)
    requires 0 <= q < m && 0 <= r < n
    ensures 0 <= q * n + r < m * n
  {
    MulMono(0, q, n);
    MulMono(q + 1, m, n);
  }

  lemma HorizontalSpringAt(n: nat, stepX: real, i: int, j: int)
    requires 1 <= i < n && 0 <= j < n
    ensures Spring(Index(i - 1, j), Index(i, j), SPRING_STIFFNESS, SPRING_DAMPING, stepX) in HorizontalSprings(n, stepX)
  {
    var h := HorizontalSprings(n, stepX);
    var k := (i - 1) * n + j;
    QuotientOf(i - 1, j, n);
    CellInBlock(i - 1, j, n - 1, n);
    assert h[k] == Spring(Index(k / n, k % n), Index(k / n + 1, k % n), SPRING_STIFFNESS, SPRING_DAMPING, stepX);
  }

  lemma VerticalSpringAt(n: nat, stepY: real, i: int, j: int)
    requires 0 <= i < n && 1 <= j < n
    ensures Spring(Index(i, j - 1), Index(i, j), SPRING_STIFFNESS, SPRING_DAMPING, stepY) in VerticalSprings(n, stepY)
  {
    var v := VerticalSprings(n, stepY);
    var k := i * (n - 1) + (j - 1);
    QuotientOf(i, j - 1, n - 1);
    CellInBlock(i, j - 1, n, n - 1);
    assert v[k] == Spring(Index(k / (n - 1), k % (n - 1)), Index(k / (n - 1), k % (n - 1) + 1), SPRING_STIFFNESS, SPRING_DAMPING, stepY);
  }

  /** Every pair of grid neighbours is joined by a spring. */
  lemma MeshSpringsComplete(n: nat, stepX: real, stepY: real)
    requires n >= 1
    ensures forall i, j :: 1 <= i < n && 0 <= j < n ==>
      Spring(Index(i - 1, j), Index(i, j), SPRING_STIFFNESS, SPRING_DAMPING, stepX) in MeshSprings(n, stepX, stepY)
    ensures forall i, j :: 0 <= i < n && 1 <= j < n ==>
      Spring(Index(i, j - 1), Index(i, j), SPRING_STIFFNESS, SPRING_DAMPING, stepY) in MeshSprings(n, stepX, stepY)
  {
    var h := HorizontalSprings(n, stepX);
    var v := VerticalSprings(n, stepY);
    assert MeshSprings(n, stepX, stepY) == h + v;
    forall i, j | 1 <= i < n && 0 <= j < n
      ensures Spring(Index(i - 1, j), Index(i, j), SPRING_STIFFNESS, SPRING_DAMPING, stepX) in h + v
    {
      HorizontalSpringAt(n, stepX, i, j);
    }
    forall i, j | 0 <= i < n && 1 <= j < n
      ensures Spring(Index(i, j - 1), Index(i, j), SPRING_STIFFNESS, SPRING_DAMPING, stepY) in h + v
    {
      VerticalSpringAt(n, stepY, i, j);
    }
  }

  /** The number of particles in a grid, row by row. */
  function ParticleCount(g: Grid): nat
  {
    if g == [] then 0 else |g[0]| + ParticleCount(g[1..])
  }

  lemma {:induction false} UniformRowsCount(g: Grid, m: nat)
    requires forall i :: 0 <= i < |g| ==> |g[i]| == m
    ensures ParticleCount(g) == |g| * m
  {
    if g != [] {
      UniformRowsCount(g[1..], m);
    }
  }

  /** An N×N mesh holds exactly N² particles. */
  lemma ParticleCountSquare(g: Grid, n: nat)
    requires Shaped(g, n)
    ensures ParticleCount(g) == n * n
  {
    UniformRowsCount(g, n);
  }

  /*---------------------------------------------------------------------------
   * Handles
   *-------------------------------------------------------------------------*/

  predicate IsHandle(h: int)
  {
    TOP_LEFT <= h <= BOTTOM_RIGHT
  }

  /** The mesh corner a handle id stands for; `None` for any other id. Bit 0
      of a handle picks the right column, bit 1 the bottom row. */
  function Corner(n: nat, h: int): (r: Option<Index>)
    ensures r.Some? <==> IsHandle(h)
    ensures r.Some? ==> r.value == Index(if h % 2 == 1 then n - 1 else 0, if h >= 2 then n - 1 else 0)
  {
    if h == TOP_LEFT then Some(Index(0, 0))
    else if h == TOP_RIGHT then Some(Index(n - 1, 0))
    else if h == BOTTOM_LEFT then Some(Index(0, n - 1))
    else if h == BOTTOM_RIGHT then Some(Index(n - 1, n - 1))
    else None
  }

  function CornerOf(n: nat, h: int): (at: Index)
    requires IsHandle(h)
    ensures n >= 1 ==> InMesh(n, at) && IsCorner(n, at.i, at.j)
  {
    Corner(n, h).value
  }

  /** On a mesh of size two or more the four handles name four different
      corners, and every corner is named by some handle. */
  lemma CornersDistinct(n: nat)
    requires n >= 2
    ensures forall h, g :: IsHandle(h) && IsHandle(g) && h != g ==> CornerOf(n, h) != CornerOf(n, g)
    ensures forall i, j :: 0 <= i < n && 0 <= j < n && IsCorner(n, i, j) ==>
      exists h :: IsHandle(h) && CornerOf(n, h) == Index(i, j)
  {
    forall i, j | 0 <= i < n && 0 <= j < n && IsCorner(n, i, j)
      ensures exists h :: IsHandle(h) && CornerOf(n, h) == Index(i, j)
    {
      var h := (if i == 0 then 0 else 1) + (if j == 0 then 0 else 2);
      assert CornerOf(n, h) == Index(i, j);
    }
  }

  /** The reset position of a handle: MARGIN pixels in from the applet's
      corresponding corner. */
  function HomePosition(c: Cloth, h: int): Vec3
    requires IsHandle(h)
  {
    var left := MARGIN as real;
    var right := (c.appletWidth - MARGIN) as real;
    var top := MARGIN as real;
    var bottom := (c.appletHeight - MARGIN) as real;
    Vec3(if h % 2 == 1 then right else left, if h >= 2 then bottom else top, 0.0)
  }

  /** Home positions depend on the applet size alone. */
  lemma HomeOfApplet(c: Cloth, d: Cloth)
    requires c.appletWidth == d.appletWidth && c.appletHeight == d.appletHeight
    ensures forall h :: IsHandle(h) ==> HomePosition(c, h) == HomePosition(d, h)
  {
  }

  /*---------------------------------------------------------------------------
   * Mesh-point operations
   *-------------------------------------------------------------------------*/

  /** Replaces the particle at `at`. Every mesh-point operation is one of these. */
  function WithParticle(c: Cloth, at: Index, p: Particle): (r: Cloth)
    requires c.Valid() && InMesh(c.n, at)
    ensures r.Valid() && SameExcept(c, r, at) && r.At(at) == p
  {
    c.(grid := c.grid[at.i := c.grid[at.i][at.j := p]])
  }

  /** Putting back the particle that was there restores the cloth. */
  lemma WithParticleRestore(c: Cloth, at: Index, p: Particle)
    requires c.Valid() && InMesh(c.n, at)
    ensures WithParticle(WithParticle(c, at, p), at, c.At(at)) == c
  {
    var r := WithParticle(WithParticle(c, at, p), at, c.At(at));
    assert r.grid[at.i] == c.grid[at.i];
    assert r.grid == c.grid;
  }

  /** Putting a particle back where it already is changes nothing. */
  lemma WithParticleSame(c: Cloth, at: Index)
    requires c.Valid() && InMesh(c.n, at)
    ensures WithParticle(c, at, c.At(at)) == c
  {
    var r := WithParticle(c, at, c.At(at));
    assert r.grid[at.i] == c.grid[at.i];
    assert r.grid == c.grid;
  }

  function FixMeshPoint(c: Cloth, i: int, j: int): (r: Cloth)
    requires c.Valid() && InMesh(c.n, Index(i, j))
    ensures r.Valid() && SameExcept(c, r, Index(i, j)) && SameButFlags(c, r)
    ensures r.grid[i][j].fixed
  {
    WithParticle(c, Index(i, j), c.grid[i][j].(fixed := true))
  }

  function FreeMeshPoint(c: Cloth, i: int, j: int): (r: Cloth)
    requires c.Valid() && InMesh(c.n, Index(i, j))
    ensures r.Valid() && SameExcept(c, r, Index(i, j)) && SameButFlags(c, r)
    ensures !r.grid[i][j].fixed
  {
    WithParticle(c, Index(i, j), c.grid[i][j].(fixed := false))
  }

  function MeshPointIsFixed(c: Cloth, i: int, j: int): bool
    requires c.Valid() && InMesh(c.n, Index(i, j))
  {
    c.grid[i][j].fixed
  }

  function SetMeshPointVelocity(c: Cloth, i: int, j: int, vx: real, vy: real, vz: real): (r: Cloth)
    requires c.Valid() && InMesh(c.n, Index(i, j))
    ensures r.Valid() && SameExcept(c, r, Index(i, j))
    ensures r.grid[i][j] == c.grid[i][j].(vel := Vec3(vx, vy, vz))
  {
    WithParticle(c, Index(i, j), c.grid[i][j].(vel := Vec3(vx, vy, vz)))
  }

  function ClearMeshPointVelocity(c: Cloth, i: int, j: int): (r: Cloth)
    requires c.Valid() && InMesh(c.n, Index(i, j))
    ensures r.Valid() && SameExcept(c, r, Index(i, j))
    ensures r.grid[i][j] == c.grid[i][j].(vel := ZERO)
  {
    WithParticle(c, Index(i, j), c.grid[i][j].(vel := ZERO))
  }

  /** The 2D projection of a mesh point's position. */
  function GetMeshPointPosition(c: Cloth, i: int, j: int): (v: Vec2)
    requires c.Valid() && InMesh(c.n, Index(i, j))
  {
    Vec2(c.grid[i][j].pos.x, c.grid[i][j].pos.y)
  }

  /** Teleports a mesh point: its velocity and fixed flag are kept. */
  function SetMeshPointPosition(c: Cloth, i: int, j: int, x: real, y: real, z: real): (r: Cloth)
    requires c.Valid() && InMesh(c.n, Index(i, j))
    ensures r.Valid() && SameExcept(c, r, Index(i, j))
    ensures r.grid[i][j] == c.grid[i][j].(pos := Vec3(x, y, z))
    ensures GetMeshPointPosition(r, i, j) == Vec2(x, y)
  {
    WithParticle(c, Index(i, j), c.grid[i][j].(pos := Vec3(x, y, z)))
  }

  function OffsetMeshPointPosition(c: Cloth, i: int, j: int, dx: real, dy: real, dz: real): (r: Cloth)
    requires c.Valid() && InMesh(c.n, Index(i, j))
    ensures r.Valid() && SameExcept(c, r, Index(i, j))
    ensures r.grid[i][j].pos.x - c.grid[i][j].pos.x == dx
    ensures r.grid[i][j].pos.y - c.grid[i][j].pos.y == dy
    ensures r.grid[i][j].pos.z - c.grid[i][j].pos.z == dz
    ensures r.grid[i][j] == c.grid[i][j].(pos := r.grid[i][j].pos)
  {
    var p := c.grid[i][j].pos;
    SetMeshPointPosition(c, i, j, p.x + dx, p.y + dy, p.z + dz)
  }

  /** The fixed-flag query reports what fixing and freeing wrote, and a
      velocity change leaves it alone. */
  lemma MeshPointFixedQuery(c: Cloth, i: int, j: int, x: real, y: real, z: real)
    requires c.Valid() && InMesh(c.n, Index(i, j))
    ensures MeshPointIsFixed(FixMeshPoint(c, i, j), i, j)
    ensures !MeshPointIsFixed(FreeMeshPoint(c, i, j), i, j)
    ensures MeshPointIsFixed(SetMeshPointVelocity(c, i, j, x, y, z), i, j) == MeshPointIsFixed(c, i, j)
  {
  }

  /** The position query reads back a set position, and an offset shows up
      in the projected position. */
  lemma MeshPointPositionQuery(c: Cloth, i: int, j: int, x: real, y: real, z: real)
    requires c.Valid() && InMesh(c.n, Index(i, j))
    ensures GetMeshPointPosition(SetMeshPointPosition(c, i, j, x, y, z), i, j) == Vec2(x, y)
    ensures var v := GetMeshPointPosition(c, i, j);
      GetMeshPointPosition(OffsetMeshPointPosition(c, i, j, x, y, z), i, j) == Vec2(v.x + x, v.y + y)
  {
  }

  /** The handle queries are the mesh-point queries at the handle's corner. */
  lemma HandleQueriesAgree(c: Cloth, h: int)
    requires c.Valid() && IsHandle(h)
    ensures var at := CornerOf(c.n, h);
      && HandleIsFixed(c, h) == MeshPointIsFixed(c, at.i, at.j)
      && GetHandlePosition(c, h) == GetMeshPointPosition(c, at.i, at.j)
  {
  }

  /*---------------------------------------------------------------------------
   * Handle operations: each addresses one corner through `Corner`; an id
   * outside 0..3 leaves the cloth as it is.
   *-------------------------------------------------------------------------*/

  /** The particle a valid handle stands for. */
  function HandleParticle(c: Cloth, h: int): Particle
    requires c.Valid() && IsHandle(h)
  {
    c.At(CornerOf(c.n, h))
  }

  function FixHandle(c: Cloth, h: int): (r: Cloth)
    requires c.Valid()
    ensures r.Valid() && SameButFlags(c, r)
    ensures !IsHandle(h) ==> r == c
    ensures IsHandle(h) ==> SameExcept(c, r, CornerOf(c.n, h)) && HandleParticle(r, h).fixed
  {
    match Corner(c.n, h)
    case None => c
    case Some(at) => FixMeshPoint(c, at.i, at.j)
  }

  function FreeHandle(c: Cloth, h: int): (r: Cloth)
    requires c.Valid()
    ensures r.Valid() && SameButFlags(c, r)
    ensures !IsHandle(h) ==> r == c
    ensures IsHandle(h) ==> SameExcept(c, r, CornerOf(c.n, h)) && !HandleParticle(r, h).fixed
  {
    match Corner(c.n, h)
    case None => c
    case Some(at) => FreeMeshPoint(c, at.i, at.j)
  }

  function HandleIsFixed(c: Cloth, h: int): (b: bool)
    requires c.Valid()
    ensures b <==> IsHandle(h) && HandleParticle(c, h).fixed
  {
    match Corner(c.n, h)
    case None => false
    case Some(at) => MeshPointIsFixed(c, at.i, at.j)
  }

  function SetHandleVelocity(c: Cloth, h: int, vx: real, vy: real, vz: real): (r: Cloth)
    requires c.Valid()
    ensures r.Valid()
    ensures !IsHandle(h) ==> r == c
    ensures IsHandle(h) ==> SameExcept(c, r, CornerOf(c.n, h))
                            && HandleParticle(r, h) == HandleParticle(c, h).(vel := Vec3(vx, vy, vz))
  {
    match Corner(c.n, h)
    case None => c
    case Some(at) => SetMeshPointVelocity(c, at.i, at.j, vx, vy, vz)
  }

  function ClearHandleVelocity(c: Cloth, h: int): (r: Cloth)
    requires c.Valid()
    ensures r.Valid()
    ensures !IsHandle(h) ==> r == c
    ensures IsHandle(h) ==> SameExcept(c, r, CornerOf(c.n, h))
                            && HandleParticle(r, h) == HandleParticle(c, h).(vel := ZERO)
  {
    match Corner(c.n, h)
    case None => c
    case Some(at) => ClearMeshPointVelocity(c, at.i, at.j)
  }

  function GetHandlePosition(c: Cloth, h: int): (v: Vec2)
    requires c.Valid()
    ensures !IsHandle(h) ==> v == Vec2(-1.0, -1.0)
    ensures IsHandle(h) ==> v == Vec2(HandleParticle(c, h).pos.x, HandleParticle(c, h).pos.y)
  {
    match Corner(c.n, h)
    case None => Vec2(-1.0, -1.0)
    case Some(at) => GetMeshPointPosition(c, at.i, at.j)
  }

  function SetHandlePosition(c: Cloth, h: int, x: real, y: real, z: real): (r: Cloth)
    requires c.Valid()
    ensures r.Valid()
    ensures !IsHandle(h) ==> r == c
    ensures IsHandle(h) ==> SameExcept(c, r, CornerOf(c.n, h))
                            && HandleParticle(r, h) == HandleParticle(c, h).(pos := Vec3(x, y, z))
  {
    match Corner(c.n, h)
    case None => c
    case Some(at) => SetMeshPointPosition(c, at.i, at.j, x, y, z)
  }

  function OffsetHandlePosition(c: Cloth, h: int, dx: real, dy: real, dz: real): (r: Cloth)
    requires c.Valid()
    ensures r.Valid()
    ensures !IsHandle(h) ==> r == c
    ensures IsHandle(h) ==> SameExcept(c, r, CornerOf(c.n, h))
                            && HandleParticle(r, h) == HandleParticle(c, h).(pos := HandleParticle(c, h).pos.Plus(Vec3(dx, dy, dz)))
  {
    match Corner(c.n, h)
    case None => c
    case Some(at) => OffsetMeshPointPosition(c, at.i, at.j, dx, dy, dz)
  }

  /** A fixed handle is reported fixed after `FixHandle`, free after
      `FreeHandle`; an invalid id is never reported fixed. */
  lemma FixFreeReported(c: Cloth, h: int)
    requires c.Valid()
    ensures HandleIsFixed(FixHandle(c, h), h) <==> IsHandle(h)
    ensures !HandleIsFixed(FreeHandle(c, h), h)
  {
  }

  /** On a mesh of size two or more, an operation on one handle leaves the
      fixed flag and the position of every other handle as they were. */
  lemma OtherHandlesUntouched(c: Cloth, h: int, g: int, x: real, y: real, z: real)
    requires c.Valid() && c.n >= 2 && IsHandle(g) && h != g
    ensures HandleIsFixed(FixHandle(c, h), g) == HandleIsFixed(c, g)
    ensures HandleIsFixed(FreeHandle(c, h), g) == HandleIsFixed(c, g)
    ensures HandleParticle(SetHandleVelocity(c, h, x, y, z), g) == HandleParticle(c, g)
    ensures HandleParticle(ClearHandleVelocity(c, h), g) == HandleParticle(c, g)
    ensures GetHandlePosition(SetHandlePosition(c, h, x, y, z), g) == GetHandlePosition(c, g)
    ensures GetHandlePosition(OffsetHandlePosition(c, h, x, y, z), g) == GetHandlePosition(c, g)
  {
    if IsHandle(h) {
      OtherCornerKept(c, FixHandle(c, h), h, g);
      OtherCornerKept(c, FreeHandle(c, h), h, g);
      OtherCornerKept(c, SetHandleVelocity(c, h, x, y, z), h, g);
      OtherCornerKept(c, ClearHandleVelocity(c, h), h, g);
      OtherCornerKept(c, SetHandlePosition(c, h, x, y, z), h, g);
      OtherCornerKept(c, OffsetHandlePosition(c, h, x, y, z), h, g);
    }
  }

  /** A change confined to handle `h`'s corner leaves handle `g`'s particle
      alone when the two corners differ. */
  lemma OtherCornerKept(c: Cloth, r: Cloth, h: int, g: int)
    requires c.Valid() && c.n >= 2 && IsHandle(h) && IsHandle(g) && h != g
    requires SameExcept(c, r, CornerOf(c.n, h)) && r.Valid()
    ensures HandleParticle(r, g) == HandleParticle(c, g)
  {
    CornersDistinct(c.n);
  }

  /** Setting a handle's position and reading it back yields what was set. */
  lemma SetThenGetPosition(c: Cloth, h: int, x: real, y: real, z: real)
    requires c.Valid() && IsHandle(h)
    ensures GetHandlePosition(SetHandlePosition(c, h, x, y, z), h) == Vec2(x, y)
  {
  }

  /** Two offsets of a handle compose into one offset by their sum. */
  lemma OffsetTwice(c: Cloth, h: int, dx1: real, dy1: real, dz1: real, dx2: real, dy2: real, dz2: real)
    requires c.Valid()
    ensures OffsetHandlePosition(OffsetHandlePosition(c, h, dx1, dy1, dz1), h, dx2, dy2, dz2)
         == OffsetHandlePosition(c, h, dx1 + dx2, dy1 + dy2, dz1 + dz2)
  {
    if IsHandle(h) {
      var at := CornerOf(c.n, h);
      var p := c.At(at);
      var one := OffsetHandlePosition(c, h, dx1, dy1, dz1);
      var two := OffsetHandlePosition(one, h, dx2, dy2, dz2);
      var sum := OffsetHandlePosition(c, h, dx1 + dx2, dy1 + dy2, dz1 + dz2);
      assert two.grid[at.i] == sum.grid[at.i];
      assert two.grid == sum.grid;
    }
  }

  /** The fix-or-free toggle every controller applies to a handle: a fixed
      handle is freed, any other is fixed. */
  function ToggleHandle(c: Cloth, h: int): (r: Cloth)
    requires c.Valid()
    ensures r.Valid() && SameButFlags(c, r)
    ensures !IsHandle(h) ==> r == FixHandle(c, h) == c
    ensures IsHandle(h) ==> SameExcept(c, r, CornerOf(c.n, h)) && HandleIsFixed(r, h) == !HandleIsFixed(c, h)
  {
    if HandleIsFixed(c, h) then FreeHandle(c, h) else FixHandle(c, h)
  }

  /** Toggling the same handle twice restores the cloth. */
  lemma ToggleTwice(c: Cloth, h: int)
    requires c.Valid()
    ensures ToggleHandle(ToggleHandle(c, h), h) == c
  {
    if IsHandle(h) {
      var at := CornerOf(c.n, h);
      var p := c.At(at);
      var once := ToggleHandle(c, h);
      assert once == WithParticle(c, at, p.(fixed := !p.fixed));
      assert ToggleHandle(once, h) == WithParticle(once, at, p);
      WithParticleRestore(c, at, p.(fixed := !p.fixed));
    }
  }

  /*---------------------------------------------------------------------------
   * Bulk handle operations
   *-------------------------------------------------------------------------*/

  function MoveTo(c: Cloth, at: Index, v: Vec3): (r: Cloth)
    requires c.Valid() && InMesh(c.n, at)
    ensures r.Valid() && SameExcept(c, r, at) && r.At(at) == c.At(at).(pos := v)
  {
    WithParticle(c, at, c.At(at).(pos := v))
  }

  /** `r` differs from `c` at most in the positions of corner particles. */
  ghost predicate CornersMoved(c: Cloth, r: Cloth)
    requires c.Valid()
  {
    && r.(grid := c.grid) == c
    && Shaped(r.grid, c.n)
    && forall i, j :: 0 <= i < c.n && 0 <= j < c.n ==>
         r.grid[i][j] == c.grid[i][j].(pos := r.grid[i][j].pos)
         && (!IsCorner(c.n, i, j) ==> r.grid[i][j] == c.grid[i][j])
  }

  /** `r` differs from `c` at most in the fixed flags of corner particles. */
  ghost predicate CornersFlagged(c: Cloth, r: Cloth)
    requires c.Valid()
  {
    && r.(grid := c.grid) == c
    && Shaped(r.grid, c.n)
    && forall i, j :: 0 <= i < c.n && 0 <= j < c.n ==>
         r.grid[i][j] == c.grid[i][j].(fixed := r.grid[i][j].fixed)
         && (!IsCorner(c.n, i, j) ==> r.grid[i][j] == c.grid[i][j])
  }

  lemma CornersMovedTrans(a: Cloth, b: Cloth, c: Cloth)
    requires a.Valid() && b.Valid() && CornersMoved(a, b) && CornersMoved(b, c)
    ensures CornersMoved(a, c)
  {
  }

  lemma CornersFlaggedTrans(a: Cloth, b: Cloth, c: Cloth)
    requires a.Valid() && b.Valid() && CornersFlagged(a, b) && CornersFlagged(b, c)
    ensures CornersFlagged(a, c)
  {
  }

  /** One step of `MoveHomesFrom`: if handle `k`'s corner is moved home in
      `c`, giving `m`, and the later handles' moves take `m` to `r`, then `r`
      has handles `k`..3 at home and the earlier handles as in `c`. */
  lemma MoveHomesStep(c: Cloth, k: nat, m: Cloth, r: Cloth)
    requires c.Valid() && k < 4
    requires m == MoveTo(c, CornerOf(c.n, k), HomePosition(c, k))
    requires r.Valid() && CornersMoved(m, r) && (k == 3 ==> r == m)
    requires m.n >= 2 ==> forall h :: k + 1 <= h < 4 ==> HandleParticle(r, h).pos == HomePosition(m, h)
    requires m.n >= 2 ==> forall h :: 0 <= h < k + 1 ==> HandleParticle(r, h) == HandleParticle(m, h)
    requires m.n == 1 && k + 1 < 4 ==> r.grid[0][0].pos == HomePosition(m, BOTTOM_RIGHT)
    ensures CornersMoved(c, r)
    ensures c.n >= 2 ==> forall h :: k <= h < 4 ==> HandleParticle(r, h).pos == HomePosition(c, h)
    ensures c.n >= 2 ==> forall h :: 0 <= h < k ==> HandleParticle(r, h) == HandleParticle(c, h)
    ensures c.n == 1 ==> r.grid[0][0].pos == HomePosition(c, BOTTOM_RIGHT)
  {
    CornersMovedTrans(c, m, r);
    assert m.appletWidth == c.appletWidth && m.appletHeight == c.appletHeight && m.n == c.n;
    var at := CornerOf(c.n, k);
    if c.n >= 2 {
      CornersDistinct(c.n);
      forall h | 0 <= h < k ensures HandleParticle(r, h) == HandleParticle(c, h) {
        assert CornerOf(c.n, h) != at;
      }
    }
  }

  /** Moves the corners of handles `k`..3 to their home positions, one handle
      after another in increasing order, as the four statements of
      `resetHandles` do; velocities and fixed flags are kept. On a one-point
      mesh every handle names the same particle, so the last move wins. */
  function MoveHomesFrom(c: Cloth, k: nat): (r: Cloth)
    requires c.Valid() && k <= 4
    ensures r.Valid() && CornersMoved(c, r)
    ensures c.n >= 2 ==> forall h :: k <= h < 4 ==> HandleParticle(r, h).pos == HomePosition(c, h)
    ensures c.n >= 2 ==> forall h :: 0 <= h < k ==> HandleParticle(r, h) == HandleParticle(c, h)
    ensures c.n == 1 && k < 4 ==> r.grid[0][0].pos == HomePosition(c, BOTTOM_RIGHT)
    decreases 4 - k
  {
    if k == 4 then c
    else
      var m := MoveTo(c, CornerOf(c.n, k), HomePosition(c, k));
      var r := MoveHomesFrom(m, k + 1);
      MoveHomesStep(c, k, m, r);
      r
  }

  /** One step of `FixFrom`, in the manner of `MoveHomesStep`. */
  lemma FixStep(c: Cloth, k: nat, m: Cloth, r: Cloth)
    requires c.Valid() && k < 4
    requires m == FixMeshPoint(c, CornerOf(c.n, k).i, CornerOf(c.n, k).j)
    requires r.Valid() && CornersFlagged(m, r) && (k == 3 ==> r == m)
    requires forall h :: k + 1 <= h < 4 ==> HandleParticle(r, h).fixed
    requires m.n >= 2 ==> forall h :: 0 <= h < k + 1 ==> HandleParticle(r, h) == HandleParticle(m, h)
    ensures CornersFlagged(c, r)
    ensures forall h :: k <= h < 4 ==> HandleParticle(r, h).fixed
    ensures c.n >= 2 ==> forall h :: 0 <= h < k ==> HandleParticle(r, h) == HandleParticle(c, h)
  {
    CornersFlaggedTrans(c, m, r);
    assert m.n == c.n;
    var at := CornerOf(c.n, k);
    if c.n >= 2 {
      CornersDistinct(c.n);
      forall h | 0 <= h < k ensures HandleParticle(r, h) == HandleParticle(c, h) {
        assert CornerOf(c.n, h) != at;
      }
    } else {
      forall h | k <= h < 4 ensures HandleParticle(r, h).fixed {
        assert CornerOf(c.n, h) == at;
        if k < 3 {
          assert CornerOf(c.n, k + 1) == at;
          assert HandleParticle(r, k + 1).fixed;
        } else {
          assert m.At(at).fixed;
        }
      }
    }
  }

  /** Fixes the corners of handles `k`..3, one after another in increasing
      order, as the four statements of `fixHandles` do. */
  function FixFrom(c: Cloth, k: nat): (r: Cloth)
    requires c.Valid() && k <= 4
    ensures r.Valid() && CornersFlagged(c, r)
    ensures forall h :: k <= h < 4 ==> HandleParticle(r, h).fixed
    ensures c.n >= 2 ==> forall h :: 0 <= h < k ==> HandleParticle(r, h) == HandleParticle(c, h)
    decreases 4 - k
  {
    if k == 4 then c
    else
      var at := CornerOf(c.n, k);
      var m := FixMeshPoint(c, at.i, at.j);
      var r := FixFrom(m, k + 1);
      FixStep(c, k, m, r);
      r
  }

  /** Moves the four corners back to their home positions, top-left first and
      bottom-right last. */
  function ResetHandles(c: Cloth): (r: Cloth)
    requires c.Valid()
    ensures r.Valid() && CornersMoved(c, r)
    ensures c.n >= 2 ==> forall h :: IsHandle(h) ==> HandleParticle(r, h).pos == HomePosition(c, h)
    ensures c.n == 1 ==> r.grid[0][0].pos == HomePosition(c, BOTTOM_RIGHT)
  {
    MoveHomesFrom(c, TOP_LEFT)
  }

  /** Fixes the four corners; nothing else changes. */
  function FixHandles(c: Cloth): (r: Cloth)
    requires c.Valid()
    ensures r.Valid() && CornersFlagged(c, r)
    ensures forall h :: IsHandle(h) ==> HandleIsFixed(r, h)
  {
    FixFrom(c, TOP_LEFT)
  }

  /** Stores the four handle colours in the slots TL, TR, BL, BR. */
  function SetHandleColours(c: Cloth, tl: int, tr: int, bl: int, br: int): (r: Cloth)
    requires c.Valid()
    ensures r.Valid() && r.(handleColours := c.handleColours) == c
    ensures r.handleColours[TOP_LEFT] == tl && r.handleColours[TOP_RIGHT] == tr
    ensures r.handleColours[BOTTOM_LEFT] == bl && r.handleColours[BOTTOM_RIGHT] == br
  {
    c.(handleColours := [tl, tr, bl, br])
  }

  /*---------------------------------------------------------------------------
   * Physics settings, physics step and display options
   *-------------------------------------------------------------------------*/

  /** Hands a new gravity to the physics engine; nothing else changes. */
  function SetGravity(c: Cloth, g: real): (r: Cloth)
    ensures r.gravity == g && r.(gravity := c.gravity) == c
    ensures c.Valid() ==> r.Valid()
  {
    c.(gravity := g)
  }

  /** One physics step. The engine's integration is not modelled: `advanced`
      is the particle grid it produces, of the same shape. The spring topology,
      the settings and the display options never change. */
  function Step(c: Cloth, advanced: Grid): (r: Cloth)
    requires c.Valid() && Shaped(advanced, c.n)
    ensures r.Valid() && r.(grid := c.grid) == c
  {
    c.(grid := advanced)
  }

  // The display-option setters and getters are plain field accesses; what
  // they promise together is stated by DisplayOptionsRoundTrip below.
  function SetDrawHandles(c: Cloth, v: bool): Cloth { c.(drawHandles := v) }
  function GetDrawHandles(c: Cloth): bool { c.drawHandles }
  function SetDrawOutlines(c: Cloth, v: bool): Cloth { c.(drawOutlines := v) }
  function GetDrawOutlines(c: Cloth): bool { c.drawOutlines }
  function SetDrawMesh(c: Cloth, v: bool): Cloth { c.(drawMesh := v) }
  function GetDrawMesh(c: Cloth): bool { c.drawMesh }

  /** Each display-option setter is read back by its getter and touches no
      other option. */
  lemma DisplayOptionsRoundTrip(c: Cloth, v: bool)
    ensures GetDrawHandles(SetDrawHandles(c, v)) == v
    ensures GetDrawOutlines(SetDrawHandles(c, v)) == GetDrawOutlines(c) && GetDrawMesh(SetDrawHandles(c, v)) == GetDrawMesh(c)
    ensures GetDrawOutlines(SetDrawOutlines(c, v)) == v
    ensures GetDrawHandles(SetDrawOutlines(c, v)) == GetDrawHandles(c) && GetDrawMesh(SetDrawOutlines(c, v)) == GetDrawMesh(c)
    ensures GetDrawMesh(SetDrawMesh(c, v)) == v
    ensures GetDrawHandles(SetDrawMesh(c, v)) == GetDrawHandles(c) && GetDrawOutlines(SetDrawMesh(c, v)) == GetDrawOutlines(c)
  {
  }

  /*---------------------------------------------------------------------------
   * Construction
   *-------------------------------------------------------------------------*/

  /** Resetting and then fixing the handles puts each corner at its home
      position, fixed, and leaves every other particle and every setting
      alone. */
  lemma ResetThenFix(c: Cloth)
    requires c.Valid()
    ensures var r := FixHandles(ResetHandles(c));
      && r.Valid() && r.(grid := c.grid) == c
      && (forall i, j :: 0 <= i < c.n && 0 <= j < c.n && !IsCorner(c.n, i, j) ==> r.grid[i][j] == c.grid[i][j])
      && (c.n >= 2 ==> forall h :: IsHandle(h) ==>
            HandleParticle(r, h) == HandleParticle(c, h).(pos := HomePosition(c, h), fixed := true))
      && (c.n == 1 ==> r.grid[0][0] == c.grid[0][0].(pos := HomePosition(c, BOTTOM_RIGHT), fixed := true))
  {
    var m := ResetHandles(c);
    MovedThenFlagged(c, m, FixHandles(m));
  }

  /** What the space bar does in every controller: gravity goes to zero and
      the corners go home, fixed. Every other particle and every other
      setting stays as it was. */
  function ResetAndFix(c: Cloth): (r: Cloth)
    requires c.Valid()
    ensures r.Valid() && r == c.(gravity := 0.0, grid := r.grid)
    ensures c.n >= 2 ==> forall h :: IsHandle(h) ==>
      HandleParticle(r, h) == HandleParticle(c, h).(pos := HomePosition(c, h), fixed := true)
    ensures c.n == 1 ==> r.grid[0][0] == c.grid[0][0].(pos := HomePosition(c, BOTTOM_RIGHT), fixed := true)
    ensures forall i, j :: 0 <= i < c.n && 0 <= j < c.n && !IsCorner(c.n, i, j) ==> r.grid[i][j] == c.grid[i][j]
  {
    var c0 := SetGravity(c, 0.0);
    ResetThenFix(c0);
    HomeOfApplet(c0, c);
    assert c0.grid == c.grid;
    FixHandles(ResetHandles(c0))
  }

  /** Corners moved home and then flagged fixed: each corner is its old
      particle at home and fixed, and every other particle is untouched. */
  lemma MovedThenFlagged(c: Cloth, m: Cloth, r: Cloth)
    requires c.Valid() && m.Valid() && r.Valid()
    requires CornersMoved(c, m) && CornersFlagged(m, r)
    requires c.n >= 2 ==> forall h :: IsHandle(h) ==> HandleParticle(m, h).pos == HomePosition(c, h)
    requires c.n == 1 ==> m.grid[0][0].pos == HomePosition(c, BOTTOM_RIGHT)
    requires forall h :: IsHandle(h) ==> HandleIsFixed(r, h)
    ensures r.(grid := c.grid) == c
    ensures forall i, j :: 0 <= i < c.n && 0 <= j < c.n && !IsCorner(c.n, i, j) ==> r.grid[i][j] == c.grid[i][j]
    ensures c.n >= 2 ==> forall h :: IsHandle(h) ==>
      HandleParticle(r, h) == HandleParticle(c, h).(pos := HomePosition(c, h), fixed := true)
    ensures c.n == 1 ==> r.grid[0][0] == c.grid[0][0].(pos := HomePosition(c, BOTTOM_RIGHT), fixed := true)
  {
    if c.n == 1 {
      assert CornerOf(c.n, TOP_LEFT) == Index(0, 0);
      assert HandleIsFixed(r, TOP_LEFT);
    }
    if c.n >= 2 {
      forall h | IsHandle(h)
        ensures HandleParticle(r, h) == HandleParticle(c, h).(pos := HomePosition(c, h), fixed := true)
      {
        var at := CornerOf(c.n, h);
        assert r.At(at) == m.At(at).(fixed := true);
        assert m.At(at) == c.At(at).(pos := HomePosition(c, h));
      }
    }
  }

  /** The cloth as the mesh builder leaves it, before its corners are reset:
      mesh extent and texture sample sizes from Java integer division, a
      lattice of free particles and the spring mesh. */
  function Built(appletWidth: int, appletHeight: int, foreground: int, n: nat,
                 clothWidth: int, clothHeight: int, g: real, d: real): (c: Cloth)
    requires n >= 1
    ensures c.Valid() && c.n == n
    ensures c.meshWidth == (clothWidth + JavaDiv(clothWidth, n)) as real
    ensures c.meshHeight == (JavaDiv(clothHeight, 2) - JavaDiv(clothHeight, n)) as real
    ensures c.sampleW == JavaDiv(clothWidth, n) && c.sampleH == JavaDiv(clothHeight, n)
    ensures c.gravity == g && c.drag == d && c.appletWidth == appletWidth && c.appletHeight == appletHeight
    ensures c.handleColours == [foreground, foreground, foreground, foreground]
    ensures !c.drawHandles && !c.drawOutlines && !c.drawMesh
    ensures c.grid == MeshGrid(n, c.meshWidth / n as real, c.meshHeight / n as real)
    ensures c.springs == MeshSprings(n, c.meshWidth / n as real, c.meshHeight / n as real)
  {
    var meshWidth := (clothWidth + JavaDiv(clothWidth, n)) as real;
    var meshHeight := (JavaDiv(clothHeight, 2) - JavaDiv(clothHeight, n)) as real;
    var stepX := meshWidth / n as real;
    var stepY := meshHeight / n as real;
    Cloth(appletWidth, appletHeight, foreground, [foreground, foreground, foreground, foreground],
          false, false, false, g, d,
          n, meshWidth, meshHeight, JavaDiv(clothWidth, n), JavaDiv(clothHeight, n),
          MeshGrid(n, stepX, stepY), MeshSprings(n, stepX, stepY))
  }

  /** A freshly built lattice whose corners were then moved home and fixed:
      corners are particles at rest at home, fixed, and every other particle
      is where the builder put it. */
  lemma FreshCorners(c: Cloth, r: Cloth)
    requires c.Valid() && r.Valid() && r.(grid := c.grid) == c
    requires c.grid == MeshGrid(c.n, c.meshWidth / c.n as real, c.meshHeight / c.n as real)
    requires forall i, j :: 0 <= i < c.n && 0 <= j < c.n && !IsCorner(c.n, i, j) ==> r.grid[i][j] == c.grid[i][j]
    requires c.n >= 2 ==> forall h :: IsHandle(h) ==>
      HandleParticle(r, h) == HandleParticle(c, h).(pos := HomePosition(c, h), fixed := true)
    requires c.n == 1 ==> r.grid[0][0] == c.grid[0][0].(pos := HomePosition(c, BOTTOM_RIGHT), fixed := true)
    ensures forall i, j :: 0 <= i < r.n && 0 <= j < r.n && !IsCorner(r.n, i, j) ==>
      r.grid[i][j] == LatticeParticle(i, j, r.meshWidth / r.n as real, r.meshHeight / r.n as real)
    ensures r.n >= 2 ==> forall h :: IsHandle(h) ==>
      HandleParticle(r, h) == Particle(PARTICLE_MASS, HomePosition(r, h), ZERO, true)
    ensures r.n == 1 ==> r.grid[0][0] == Particle(PARTICLE_MASS, HomePosition(r, BOTTOM_RIGHT), ZERO, true)
  {
    assert r.n == c.n && r.meshWidth == c.meshWidth && r.meshHeight == c.meshHeight;
    assert r.appletWidth == c.appletWidth && r.appletHeight == c.appletHeight;
  }

  /** Builds the cloth, then resets its corners to their home positions and
      fixes them. A mesh size of zero or less makes the constructor throw
      (division by zero or a negative array size), so there is no cloth. */
  function New(appletWidth: int, appletHeight: int, foreground: int, meshSize: int,
               clothWidth: int, clothHeight: int, g: real, d: real): (r: Option<Cloth>)
    ensures r.Some? <==> meshSize >= 1
    ensures r.Some? ==> r.value.Valid() && r.value.n == meshSize
    ensures r.Some? ==>
      && r.value.meshWidth == (clothWidth + JavaDiv(clothWidth, meshSize)) as real
      && r.value.meshHeight == (JavaDiv(clothHeight, 2) - JavaDiv(clothHeight, meshSize)) as real
      && r.value.sampleW == JavaDiv(clothWidth, meshSize)
      && r.value.sampleH == JavaDiv(clothHeight, meshSize)
    ensures r.Some? ==>
      && r.value.gravity == g && r.value.drag == d
      && r.value.appletWidth == appletWidth && r.value.appletHeight == appletHeight
      && r.value.handleColours == [foreground, foreground, foreground, foreground]
      && !r.value.drawHandles && !r.value.drawOutlines && !r.value.drawMesh
    ensures r.Some? ==> var c := r.value;
      && c.springs == MeshSprings(c.n, c.meshWidth / c.n as real, c.meshHeight / c.n as real)
      && (forall i, j :: 0 <= i < c.n && 0 <= j < c.n && !IsCorner(c.n, i, j) ==>
            c.grid[i][j] == LatticeParticle(i, j, c.meshWidth / c.n as real, c.meshHeight / c.n as real))
      && (c.n >= 2 ==> forall h :: IsHandle(h) ==>
            HandleParticle(c, h) == Particle(PARTICLE_MASS, HomePosition(c, h), ZERO, true))
      && (c.n == 1 ==> c.grid[0][0] == Particle(PARTICLE_MASS, HomePosition(c, BOTTOM_RIGHT), ZERO, true))
  {
    if meshSize < 1 then None
    else
      var built := Built(appletWidth, appletHeight, foreground, meshSize, clothWidth, clothHeight, g, d);
      var r := FixHandles(ResetHandles(built));
      ResetThenFix(built);
      FreshCorners(built, r);
      Some(r)
  }
}

=== FILE: live.dfy ===
/** The serial-port controller: a microcontroller streams fixed-width ASCII
    frames, one per line, whose digit fields lock the handles, switch display
    options, select a handle, nudge it, set gravity and (held for four frames)
    reset the corners. */
module FaceClothLive {
  import opened ImageCloth

  const POT_MIDPOINT: int := 4
  const POT_MULTIPLIER: int := 2
  const COORD_MULTIPLIER: int := 4
  /** Consecutive reset frames needed before the corners are reset. */
  const RESET_HOLD: int := 4

  // Field positions in a frame.
  const A_LOCK: int := 0
  const B_LOCK: int := 1
  const C_LOCK: int := 2
  const D_LOCK: int := 3
  const H_TOGGLE: int := 4
  const E_TOGGLE: int := 5
  const O_TOGGLE: int := 7
  const M_TOGGLE: int := 8
  const N_SELECT: int := 9
  const R_SWITCH: int := 10
  const X_ACC: int := 11
  const Y_ACC: int := 12
  const F_VAL: int := 13

  /** A frame long enough for every field to be read. */
  const FRAME_LENGTH: int := 14

  datatype State = State(cloth: Cloth, buffer: string, clearFrame: bool, numResets: int,
                         currDX: int, currDY: int, selected: int, gravity: real)
  {
    /** What holds between events: the buffer holds at most a partial line,
        the debounce counter is below the hold count, a valid handle is
        selected and the cloth has the applet's gravity. */
    predicate Valid()
    {
      Consistent() && '\n' !in buffer
    }

    /** The part of validity that decoding a line preserves. */
    predicate Consistent()
    {
      && cloth.Valid()
      && 0 <= numResets < RESET_HOLD
      && IsHandle(selected)
      && cloth.gravity == gravity
    }
  }

  /** The applet's state after `setup`, given the cloth it built (with no
      gravity). The selected handle is the Java field default, 0. */
  function Init(cloth: Cloth): (s: State)
    requires cloth.Valid() && cloth.gravity == 0.0
    ensures s.Valid() && s.buffer == [] && s.numResets == 0 && s.selected == TOP_LEFT
  {
    State(cloth, [], true, 0, 0, 0, 0, 0.0)
  }

  /** `setup` on a screen of the given size: a 20×20 mesh over a 400×300
      capture in yellow, with no gravity and a drag of 0.05, and the handles
      coloured amber, green, red and blue. */
  function Setup(screenWidth: int, screenHeight: int): (s: State)
    ensures s.Valid() && s.cloth.n == 20 && s.buffer == []
    ensures s.cloth.handleColours == [Rgb(255, 188, 0), Rgb(93, 180, 2), Rgb(247, 10, 10), Rgb(28, 0, 219)]
    ensures forall h :: IsHandle(h) ==> HandleIsFixed(s.cloth, h)
  {
    var c := New(screenWidth, screenHeight, Rgb(255, 255, 0), 20, 400, 300, 0.0, 0.05).value;
    var coloured := SetHandleColours(c, Rgb(255, 188, 0), Rgb(93, 180, 2), Rgb(247, 10, 10), Rgb(28, 0, 219));
    Init(coloured)
  }

  /*---------------------------------------------------------------------------
   * Field decoding
   *-------------------------------------------------------------------------*/

  /** Scales a potentiometer digit to a signed offset around its midpoint. */
  function ConvertAndScale(c: char): (v: int)
    ensures '0' <= c <= '9' ==> -8 <= v <= 10
    ensures v == 0 <==> c == '4'
  {
    ((c as int) - ('0' as int) - POT_MIDPOINT) * POT_MULTIPLIER
  }

  /** The scaled value is even, and halving it and adding back the midpoint
      recovers the character. */
  lemma ConvertAndScaleInverse(c: char)
    ensures var v := ConvertAndScale(c);
      v % 2 == 0 && v / 2 + POT_MIDPOINT + ('0' as int) == c as int
  {
  }

  /** Higher digits give strictly larger offsets, so no two characters scale
      to the same value. */
  lemma ConvertAndScaleMonotone(c: char, d: char)
    requires c < d
    ensures ConvertAndScale(c) < ConvertAndScale(d)
  {
  }

  /** A lock field: '0' fixes the handle, anything else frees it. */
  function ApplyLock(c: Cloth, h: int, field: char): (r: Cloth)
    requires c.Valid() && IsHandle(h)
    ensures r.Valid() && SameButFlags(c, r) && SameExcept(c, r, CornerOf(c.n, h))
    ensures HandleIsFixed(r, h) <==> field == '0'
  {
    if field == '0' then FixHandle(c, h) else FreeHandle(c, h)
  }

  /** The selection field: '1', '2', '3' pick handles 0, 1, 2 and every other
      character picks handle 3. */
  function SelectHandle(field: char): (h: int)
    ensures IsHandle(h)
    ensures h == TOP_LEFT <==> field == '1'
    ensures h == TOP_RIGHT <==> field == '2'
    ensures h == BOTTOM_LEFT <==> field == '3'
  {
    if field == '1' then TOP_LEFT
    else if field == '2' then TOP_RIGHT
    else if field == '3' then BOTTOM_LEFT
    else BOTTOM_RIGHT
  }

  /** The fields in the order the decoder reads them: the four locks, then
      field 5 before field 4, the selection, the deltas, gravity, and the
      reset field last. */
  const READ_ORDER: seq<int> :=
    [A_LOCK, B_LOCK, C_LOCK, D_LOCK, E_TOGGLE, H_TOGGLE, O_TOGGLE, M_TOGGLE,
     N_SELECT, X_ACC, Y_ACC, F_VAL, R_SWITCH]

  /** Whether the reads `p`..`q` all find their field within the line. */
  predicate ReadsWithin(data: string, p: nat, q: int)
    requires q < |READ_ORDER|
    decreases q - p + 1
  {
    p > q || (READ_ORDER[p] < |data| && ReadsWithin(data, p + 1, q))
  }

  /** Whether decoding a line gets as far as applying its `q`-th read: that
      field and every field read before it lie within the line, since the
      first read past the end stops the decoding. */
  predicate Reaches(data: string, q: int)
    requires q < |READ_ORDER|
  {
    ReadsWithin(data, 0, q)
  }

  /** The reads `p`..`q` are within the line when `p`..`q-1` are and so is the
      last one. */
  lemma {:induction false} ReadsWithinLast(data: string, p: nat, q: int)
    requires p <= q < |READ_ORDER|
    ensures ReadsWithin(data, p, q) <==> ReadsWithin(data, p, q - 1) && READ_ORDER[q] < |data|
    decreases q - p
  {
    if p < q {
      ReadsWithinLast(data, p + 1, q);
    }
  }

  /** Each lock read is reached exactly when the line holds its field. */
  lemma ReachesLocks(data: string)
    ensures Reaches(data, 0) <==> |data| > A_LOCK
    ensures Reaches(data, 1) <==> |data| > B_LOCK
    ensures Reaches(data, 2) <==> |data| > C_LOCK
    ensures Reaches(data, 3) <==> |data| > D_LOCK
  {
    ReadsWithinLast(data, 0, 0); ReadsWithinLast(data, 0, 1);
    ReadsWithinLast(data, 0, 2); ReadsWithinLast(data, 0, 3);
  }

  /** The option and selection reads are reached exactly when the line is
      longer than the largest field position read so far; field 5 is read
      before field 4, so both need a line longer than 5. */
  lemma ReachesOptions(data: string)
    ensures Reaches(data, 4) <==> |data| > E_TOGGLE
    ensures Reaches(data, 5) <==> |data| > E_TOGGLE
    ensures Reaches(data, 6) <==> |data| > O_TOGGLE
    ensures Reaches(data, 7) <==> |data| > M_TOGGLE
    ensures Reaches(data, 8) <==> |data| > N_SELECT
  {
    ReachesLocks(data);
    ReadsWithinLast(data, 0, 4); ReadsWithinLast(data, 0, 5); ReadsWithinLast(data, 0, 6);
    ReadsWithinLast(data, 0, 7); ReadsWithinLast(data, 0, 8);
  }

  /** The delta, gravity and reset reads. The reset field (position 10) is
      read after gravity (position 13), so it takes a full line. */
  lemma ReachesValues(data: string)
    ensures Reaches(data, 9) <==> |data| > X_ACC
    ensures Reaches(data, 10) <==> |data| > Y_ACC
    ensures Reaches(data, 11) <==> |data| > F_VAL
    ensures Reaches(data, 12) <==> |data| > F_VAL
  {
    ReachesOptions(data);
    ReadsWithinLast(data, 0, 9); ReadsWithinLast(data, 0, 10);
    ReadsWithinLast(data, 0, 11); ReadsWithinLast(data, 0, 12);
  }

  /** The gravity field: the scaled value is handed to the cloth only when it
      differs from the current gravity. */
  function DecodeGravity(s: State, field: char): (r: State)
    ensures r.gravity == ConvertAndScale(field) as real
    ensures r == s.(gravity := r.gravity, cloth := r.cloth)
    ensures r.gravity != s.gravity ==> r.cloth == s.cloth.(gravity := r.gravity)
    ensures r.gravity == s.gravity ==> r == s
  {
    var g := ConvertAndScale(field) as real;
    if g != s.gravity then s.(gravity := g, cloth := SetGravity(s.cloth, g)) else s
  }

  /** Whether the reset field `ch` completes a held reset: it is the
      RESET_HOLD-th '0' in a row. */
  predicate Held(s: State, ch: char)
  {
    ch == '0' && s.numResets + 1 >= RESET_HOLD
  }

  /** The debounce counter after a reset field: it counts consecutive '0's
      and starts over once it reaches RESET_HOLD. */
  function NextCount(count: int, field: char): (k: int)
    ensures 0 <= count < RESET_HOLD ==> 0 <= k < RESET_HOLD
    ensures field != '0' ==> k == 0
    ensures 0 <= count < RESET_HOLD && field == '0' ==> k == (count + 1) % RESET_HOLD
  {
    var k := if field == '0' then count + 1 else 0;
    if k >= RESET_HOLD then 0 else k
  }

  /** The counter after a run of reset fields, starting from `count`. */
  function CountAfter(count: int, fields: string): int
    decreases |fields|
  {
    if fields == [] then count else CountAfter(NextCount(count, fields[0]), fields[1..])
  }

  function Zeros(m: nat): (z: string)
    ensures |z| == m && forall k :: 0 <= k < m ==> z[k] == '0'
  {
    seq(m, _ => '0')
  }

  /** Holding the reset switch: after `m` consecutive '0's the counter is
      `m` past where it started, modulo RESET_HOLD. */
  lemma {:induction false} HoldCounts(count: int, m: nat)
    requires 0 <= count < RESET_HOLD
    ensures CountAfter(count, Zeros(m)) == (count + m) % RESET_HOLD
    decreases m
  {
    if m > 0 {
      assert Zeros(m)[0] == '0' && Zeros(m)[1..] == Zeros(m - 1);
      HoldCounts(NextCount(count, '0'), m - 1);
    }
  }

  /** Releasing the switch, even once, restarts the count: whatever came
      before, a field other than '0' leaves the counter at 0. */
  lemma {:induction false} HoldBroken(count: int, fields: string, ch: char)
    requires ch != '0'
    ensures CountAfter(count, fields + [ch]) == 0
    decreases |fields|
  {
    if fields == [] {
      assert fields + [ch] == [ch];
    } else {
      assert (fields + [ch])[1..] == fields[1..] + [ch];
      HoldBroken(NextCount(count, fields[0]), fields[1..], ch);
    }
  }

  /** Holding the switch from rest, the `m+1`-th '0' resets the counter,
      which is when the corners go home, exactly when `m+1` is a multiple of
      RESET_HOLD. */
  lemma HoldFires(m: nat)
    ensures NextCount(CountAfter(0, Zeros(m)), '0') == 0 <==> (m + 1) % RESET_HOLD == 0
  {
    HoldCounts(0, m);
  }

  /** The reset field, debounced: when the counter reaches RESET_HOLD the
      corners go home. */
  function DecodeReset(s: State, field: char): (r: State)
    requires s.cloth.Valid()
    ensures r == s.(numResets := r.numResets, cloth := r.cloth)
    ensures r.numResets == NextCount(s.numResets, field)
    ensures Held(s, field) ==> r.cloth == ResetHandles(s.cloth)
    ensures !Held(s, field) ==> r.cloth == s.cloth
  {
    var count := if field == '0' then s.numResets + 1 else 0;
    if count >= RESET_HOLD then s.(cloth := ResetHandles(s.cloth), numResets := 0)
    else s.(numResets := count)
  }

  /** Applies the `p`-th read of a line, which found the character `ch`.
      Each read sets its own setting and nothing else. */
  function ApplyField(s: State, p: int, ch: char): (r: State)
    requires s.cloth.Valid() && 0 <= p < |READ_ORDER|
    ensures r.cloth.Valid() && r.cloth.n == s.cloth.n && r.cloth.springs == s.cloth.springs
    ensures r.buffer == s.buffer
    ensures r.cloth.appletWidth == s.cloth.appletWidth && r.cloth.appletHeight == s.cloth.appletHeight
  {
    if p < 4 then s.(cloth := ApplyLock(s.cloth, p, ch))
    else if p == 4 then s.(clearFrame := ch == '0')
    else if p == 5 then s.(cloth := SetDrawHandles(s.cloth, ch == '0'))
    else if p == 6 then s.(cloth := SetDrawOutlines(s.cloth, ch == '0'))
    else if p == 7 then s.(cloth := SetDrawMesh(s.cloth, ch == '0'))
    else if p == 8 then s.(selected := SelectHandle(ch))
    else if p == 9 then s.(currDX := ConvertAndScale(ch))
    else if p == 10 then s.(currDY := ConvertAndScale(ch))
    else if p == 11 then DecodeGravity(s, ch)
    else DecodeReset(s, ch)
  }

  /** Each display read sets its own option from the character it found
      ('0' switches it on) and leaves the other options alone. */
  lemma ApplyFieldOptions(s: State, p: int, ch: char)
    requires s.cloth.Valid() && 0 <= p < |READ_ORDER|
    ensures var r := ApplyField(s, p, ch);
      && r.clearFrame == (if p == 4 then ch == '0' else s.clearFrame)
      && r.cloth.drawHandles == (if p == 5 then ch == '0' else s.cloth.drawHandles)
      && r.cloth.drawOutlines == (if p == 6 then ch == '0' else s.cloth.drawOutlines)
      && r.cloth.drawMesh == (if p == 7 then ch == '0' else s.cloth.drawMesh)
  {
    if p < 4 {
      assert ApplyLock(s.cloth, p, ch).(grid := s.cloth.grid) == s.cloth;
    } else if p < 12 {
      // The settings reads: each updates one field of the state.
    } else {
      // The reset read: the cloth keeps its options.
    }
  }

  /** The selection, delta and gravity reads set their own values, and
      gravity reaches the cloth only when it changes. */
  lemma ApplyFieldValues(s: State, p: int, ch: char)
    requires s.cloth.Valid() && 0 <= p < |READ_ORDER|
    ensures var r := ApplyField(s, p, ch);
      && r.selected == (if p == 8 then SelectHandle(ch) else s.selected)
      && r.currDX == (if p == 9 then ConvertAndScale(ch) else s.currDX)
      && r.currDY == (if p == 10 then ConvertAndScale(ch) else s.currDY)
      && r.gravity == (if p == 11 then ConvertAndScale(ch) as real else s.gravity)
      && r.cloth.gravity == (if p == 11 && r.gravity != s.gravity then r.gravity else s.cloth.gravity)
  {
    if p < 4 {
      assert ApplyLock(s.cloth, p, ch).(grid := s.cloth.grid) == s.cloth;
    }
  }

  /** Only the reset read moves the debounce counter. */
  lemma ApplyFieldCount(s: State, p: int, ch: char)
    requires s.cloth.Valid() && 0 <= p < |READ_ORDER|
    ensures ApplyField(s, p, ch).numResets == if p != 12 then s.numResets else NextCount(s.numResets, ch)
  {
  }

  /** Only the lock reads and a held reset touch the particles: a lock read
      changes one corner's flag, a held reset moves the corners home. */
  lemma ApplyFieldGrid(s: State, p: int, ch: char)
    requires s.cloth.Valid() && 0 <= p < |READ_ORDER|
    ensures var r := ApplyField(s, p, ch);
      && (p < 4 ==> SameButFlags(s.cloth, r.cloth) && SameExcept(s.cloth, r.cloth, CornerOf(s.cloth.n, p))
                    && (HandleIsFixed(r.cloth, p) <==> ch == '0'))
      && (4 <= p < 12 || (p == 12 && !Held(s, ch)) ==> r.cloth.grid == s.cloth.grid)
      && (p == 12 && Held(s, ch) ==> r.cloth == ResetHandles(s.cloth))
  {
  }

  /** The reads from the `p`-th on, in READ_ORDER, until one falls past the
      end of the line. */
  function DecodeFrom(s: State, data: string, p: nat): (r: State)
    requires s.cloth.Valid() && p <= |READ_ORDER|
    ensures r.cloth.Valid() && r.cloth.n == s.cloth.n && r.cloth.springs == s.cloth.springs
    ensures r.buffer == s.buffer
    decreases |READ_ORDER| - p
  {
    if p == |READ_ORDER| || |data| <= READ_ORDER[p] then s
    else DecodeFrom(ApplyField(s, p, data[READ_ORDER[p]]), data, p + 1)
  }

  /** Decodes one line. The first read past the end of the line throws; the
      applet catches the exception, so the fields already applied stay
      applied and the rest are skipped. */
  function ProcessSerial(s: State, data: string): (r: State)
    requires s.cloth.Valid()
    ensures r.cloth.Valid() && r.cloth.n == s.cloth.n && r.cloth.springs == s.cloth.springs
    ensures r.buffer == s.buffer
  {
    DecodeFrom(s, data, 0)
  }

  /*---------------------------------------------------------------------------
   * What reads `p` onwards do, one group of settings at a time
   *-------------------------------------------------------------------------*/

  /** The frame-clearing and handle-drawing options after reads `p` onwards:
      each comes from its field when decoding gets that far, and keeps its
      value otherwise. */
  lemma {:induction false} DecodeFromFrameOptions(s: State, data: string, p: nat)
    requires s.cloth.Valid() && p <= |READ_ORDER|
    ensures var r := DecodeFrom(s, data, p);
      && (p <= 4 && ReadsWithin(data, p, 4) ==> E_TOGGLE < |data| && r.clearFrame == (data[E_TOGGLE] == '0'))
      && (!(p <= 4 && ReadsWithin(data, p, 4)) ==> r.clearFrame == s.clearFrame)
      && (p <= 5 && ReadsWithin(data, p, 5) ==> H_TOGGLE < |data| && r.cloth.drawHandles == (data[H_TOGGLE] == '0'))
      && (!(p <= 5 && ReadsWithin(data, p, 5)) ==> r.cloth.drawHandles == s.cloth.drawHandles)
    decreases |READ_ORDER| - p
  {
    if p < |READ_ORDER| && READ_ORDER[p] < |data| {
      ApplyFieldOptions(s, p, data[READ_ORDER[p]]);
      DecodeFromFrameOptions(ApplyField(s, p, data[READ_ORDER[p]]), data, p + 1);
    }
  }

  /** The outline- and mesh-drawing options after reads `p` onwards, likewise. */
  lemma {:induction false} DecodeFromMeshOptions(s: State, data: string, p: nat)
    requires s.cloth.Valid() && p <= |READ_ORDER|
    ensures var r := DecodeFrom(s, data, p);
      && (p <= 6 && ReadsWithin(data, p, 6) ==> O_TOGGLE < |data| && r.cloth.drawOutlines == (data[O_TOGGLE] == '0'))
      && (!(p <= 6 && ReadsWithin(data, p, 6)) ==> r.cloth.drawOutlines == s.cloth.drawOutlines)
      && (p <= 7 && ReadsWithin(data, p, 7) ==> M_TOGGLE < |data| && r.cloth.drawMesh == (data[M_TOGGLE] == '0'))
      && (!(p <= 7 && ReadsWithin(data, p, 7)) ==> r.cloth.drawMesh == s.cloth.drawMesh)
    decreases |READ_ORDER| - p
  {
    if p < |READ_ORDER| && READ_ORDER[p] < |data| {
      ApplyFieldOptions(s, p, data[READ_ORDER[p]]);
      DecodeFromMeshOptions(ApplyField(s, p, data[READ_ORDER[p]]), data, p + 1);
    }
  }

  /** The selection and the deltas after reads `p` onwards, likewise. */
  lemma {:induction false} DecodeFromSelection(s: State, data: string, p: nat)
    requires s.cloth.Valid() && p <= |READ_ORDER|
    ensures var r := DecodeFrom(s, data, p);
      && (p <= 8 && ReadsWithin(data, p, 8) ==> N_SELECT < |data| && r.selected == SelectHandle(data[N_SELECT]))
      && (!(p <= 8 && ReadsWithin(data, p, 8)) ==> r.selected == s.selected)
      && (p <= 9 && ReadsWithin(data, p, 9) ==> X_ACC < |data| && r.currDX == ConvertAndScale(data[X_ACC]))
      && (!(p <= 9 && ReadsWithin(data, p, 9)) ==> r.currDX == s.currDX)
      && (p <= 10 && ReadsWithin(data, p, 10) ==> Y_ACC < |data| && r.currDY == ConvertAndScale(data[Y_ACC]))
      && (!(p <= 10 && ReadsWithin(data, p, 10)) ==> r.currDY == s.currDY)
    decreases |READ_ORDER| - p
  {
    if p < |READ_ORDER| && READ_ORDER[p] < |data| {
      ApplyFieldValues(s, p, data[READ_ORDER[p]]);
      DecodeFromSelection(ApplyField(s, p, data[READ_ORDER[p]]), data, p + 1);
    }
  }

  /** Gravity after reads `p` onwards, and the cloth kept in step with it. */
  lemma {:induction false} DecodeFromGravity(s: State, data: string, p: nat)
    requires s.cloth.Valid() && p <= |READ_ORDER|
    ensures var r := DecodeFrom(s, data, p);
      && (p <= 11 && ReadsWithin(data, p, 11) ==> F_VAL < |data| && r.gravity == ConvertAndScale(data[F_VAL]) as real)
      && (!(p <= 11 && ReadsWithin(data, p, 11)) ==> r.gravity == s.gravity)
      && (s.cloth.gravity == s.gravity ==> r.cloth.gravity == r.gravity)
    decreases |READ_ORDER| - p
  {
    if p < |READ_ORDER| && READ_ORDER[p] < |data| {
      ApplyFieldValues(s, p, data[READ_ORDER[p]]);
      DecodeFromGravity(ApplyField(s, p, data[READ_ORDER[p]]), data, p + 1);
    }
  }

  /** The debounce counter after reads `p` onwards: it moves only when the
      reset field is read. */
  lemma {:induction false} DecodeFromCount(s: State, data: string, p: nat)
    requires s.cloth.Valid() && p <= |READ_ORDER|
    ensures var r := DecodeFrom(s, data, p);
      && (p <= 12 && ReadsWithin(data, p, 12) ==>
            R_SWITCH < |data| && r.numResets == NextCount(s.numResets, data[R_SWITCH]))
      && (!(p <= 12 && ReadsWithin(data, p, 12)) ==> r.numResets == s.numResets)
    decreases |READ_ORDER| - p
  {
    if p < |READ_ORDER| && READ_ORDER[p] < |data| {
      ApplyFieldCount(s, p, data[READ_ORDER[p]]);
      DecodeFromCount(ApplyField(s, p, data[READ_ORDER[p]]), data, p + 1);
    }
  }

  /** Decoding keeps the counter below the hold count, a handle selected and
      the cloth's gravity in step with the applet's. */
  lemma {:induction false} DecodeFromConsistent(s: State, data: string, p: nat)
    requires s.Consistent() && p <= |READ_ORDER|
    ensures DecodeFrom(s, data, p).Consistent()
    decreases |READ_ORDER| - p
  {
    if p < |READ_ORDER| && READ_ORDER[p] < |data| {
      ApplyFieldValues(s, p, data[READ_ORDER[p]]);
      ApplyFieldCount(s, p, data[READ_ORDER[p]]);
      DecodeFromConsistent(ApplyField(s, p, data[READ_ORDER[p]]), data, p + 1);
    }
  }

  /** A read other than handle `h`'s lock field leaves that lock alone. */
  lemma ApplyFieldKeepsLock(s: State, p: int, ch: char, h: int)
    requires s.cloth.Valid() && s.cloth.n >= 2 && 0 <= p < |READ_ORDER| && IsHandle(h) && p != h
    ensures HandleIsFixed(ApplyField(s, p, ch).cloth, h) == HandleIsFixed(s.cloth, h)
  {
    var r := ApplyField(s, p, ch);
    var at := CornerOf(s.cloth.n, h);
    ApplyFieldGrid(s, p, ch);
    if p < 4 {
      OtherCornerKept(s.cloth, r.cloth, p, h);
    } else if p == 12 && Held(s, ch) {
      assert r.cloth.grid[at.i][at.j] == s.cloth.grid[at.i][at.j].(pos := r.cloth.grid[at.i][at.j].pos);
    }
  }

  /** The handle locks after reads `p` onwards. */
  lemma {:induction false} DecodeFromLocks(s: State, data: string, p: nat)
    requires s.cloth.Valid() && s.cloth.n >= 2 && p <= |READ_ORDER|
    ensures var r := DecodeFrom(s, data, p);
      forall h :: IsHandle(h) ==>
        && (p <= h && ReadsWithin(data, p, h) ==> h < |data| && (HandleIsFixed(r.cloth, h) <==> data[h] == '0'))
        && (!(p <= h && ReadsWithin(data, p, h)) ==> HandleIsFixed(r.cloth, h) == HandleIsFixed(s.cloth, h))
    decreases |READ_ORDER| - p
  {
    if p < |READ_ORDER| && READ_ORDER[p] < |data| {
      var s1 := ApplyField(s, p, data[READ_ORDER[p]]);
      DecodeFromLocks(s1, data, p + 1);
      ApplyFieldGrid(s, p, data[READ_ORDER[p]]);
      forall h | IsHandle(h) && h != p
        ensures HandleIsFixed(s1.cloth, h) == HandleIsFixed(s.cloth, h)
      {
        ApplyFieldKeepsLock(s, p, data[READ_ORDER[p]], h);
      }
    }
  }

  /** Reads `p` onwards never touch a particle that is not a corner. */
  lemma {:induction false} DecodeFromInterior(s: State, data: string, p: nat)
    requires s.cloth.Valid() && p <= |READ_ORDER|
    ensures var r := DecodeFrom(s, data, p);
      forall i, j :: 0 <= i < s.cloth.n && 0 <= j < s.cloth.n && !IsCorner(s.cloth.n, i, j) ==>
        r.cloth.grid[i][j] == s.cloth.grid[i][j]
    decreases |READ_ORDER| - p
  {
    if p < |READ_ORDER| && READ_ORDER[p] < |data| {
      var s1 := ApplyField(s, p, data[READ_ORDER[p]]);
      DecodeFromInterior(s1, data, p + 1);
      ApplyFieldGrid(s, p, data[READ_ORDER[p]]);
    }
  }

  /** Whether reads `p` onwards complete a held reset. */
  predicate FiresFrom(s: State, data: string, p: nat)
    requires p <= |READ_ORDER|
  {
    p <= 12 && ReadsWithin(data, p, 12) && R_SWITCH < |data| && Held(s, data[R_SWITCH])
  }

  /** One read changes a handle only in its lock, unless it is a reset field
      completing a held reset, which also sends the handle home. */
  lemma ApplyFieldHandles(s: State, p: int, ch: char)
    requires s.cloth.Valid() && s.cloth.n >= 2 && 0 <= p < |READ_ORDER|
    ensures var r := ApplyField(s, p, ch);
      forall h :: IsHandle(h) ==> var q := HandleParticle(s.cloth, h);
        HandleParticle(r.cloth, h)
        == q.(pos := if p == 12 && Held(s, ch) then HomePosition(s.cloth, h) else q.pos,
              fixed := HandleParticle(r.cloth, h).fixed)
  {
    var r := ApplyField(s, p, ch);
    ApplyFieldGrid(s, p, ch);
    if p == 12 && Held(s, ch) {
      HomeOfApplet(s.cloth, r.cloth);
      forall h | IsHandle(h)
        ensures var q := HandleParticle(s.cloth, h);
          HandleParticle(r.cloth, h) == q.(pos := HandleParticle(r.cloth, h).pos)
      {
        var at := CornerOf(s.cloth.n, h);
        assert r.cloth.grid[at.i][at.j] == s.cloth.grid[at.i][at.j].(pos := r.cloth.grid[at.i][at.j].pos);
      }
    }
  }

  /** The handles after reads `p` onwards: only their locks change, unless a
      held reset completes, which also sends them home. */
  lemma {:induction false} DecodeFromHandles(s: State, data: string, p: nat)
    requires s.cloth.Valid() && s.cloth.n >= 2 && p <= |READ_ORDER|
    ensures var r := DecodeFrom(s, data, p);
      && r.cloth.appletWidth == s.cloth.appletWidth && r.cloth.appletHeight == s.cloth.appletHeight
      && forall h :: IsHandle(h) ==> var q := HandleParticle(s.cloth, h);
           HandleParticle(r.cloth, h)
           == q.(pos := if FiresFrom(s, data, p) then HomePosition(s.cloth, h) else q.pos,
                 fixed := HandleParticle(r.cloth, h).fixed)
    decreases |READ_ORDER| - p
  {
    if p < |READ_ORDER| && READ_ORDER[p] < |data| {
      var ch := data[READ_ORDER[p]];
      var s1 := ApplyField(s, p, ch);
      DecodeFromHandles(s1, data, p + 1);
      ApplyFieldHandles(s, p, ch);
      ApplyFieldCount(s, p, ch);
      HomeOfApplet(s.cloth, s1.cloth);
      if p < 12 {
        assert FiresFrom(s1, data, p + 1) == FiresFrom(s, data, p);
      }
    }
  }

  /*---------------------------------------------------------------------------
   * What one line does
   *-------------------------------------------------------------------------*/

  /** A lock field that is present sets its handle's lock; the locks of the
      fields cut off by a short line stay as they were. */
  lemma FrameLocks(s: State, data: string)
    requires s.cloth.Valid() && s.cloth.n >= 2
    ensures var r := ProcessSerial(s, data);
      forall h :: IsHandle(h) ==>
        HandleIsFixed(r.cloth, h) == if h < |data| then data[h] == '0' else HandleIsFixed(s.cloth, h)
  {
    DecodeFromLocks(s, data, 0);
    ReachesLocks(data);
  }

  /** The four display options: each is set from its field when the line
      reaches it ('0' switches it on) and left alone otherwise. The handle
      option is read just after the frame option, so it needs the same
      length. */
  lemma FrameOptions(s: State, data: string)
    requires s.cloth.Valid()
    ensures var r := ProcessSerial(s, data);
      && r.clearFrame == (if |data| > E_TOGGLE then data[E_TOGGLE] == '0' else s.clearFrame)
      && r.cloth.drawHandles == (if |data| > E_TOGGLE then data[H_TOGGLE] == '0' else s.cloth.drawHandles)
      && r.cloth.drawOutlines == (if |data| > O_TOGGLE then data[O_TOGGLE] == '0' else s.cloth.drawOutlines)
      && r.cloth.drawMesh == (if |data| > M_TOGGLE then data[M_TOGGLE] == '0' else s.cloth.drawMesh)
  {
    DecodeFromFrameOptions(s, data, 0);
    DecodeFromMeshOptions(s, data, 0);
    ReachesOptions(data);
  }

  /** The selected handle and the pending deltas. */
  lemma FrameSelection(s: State, data: string)
    requires s.cloth.Valid()
    ensures var r := ProcessSerial(s, data);
      && r.selected == (if |data| > N_SELECT then SelectHandle(data[N_SELECT]) else s.selected)
      && r.currDX == (if |data| > X_ACC then ConvertAndScale(data[X_ACC]) else s.currDX)
      && r.currDY == (if |data| > Y_ACC then ConvertAndScale(data[Y_ACC]) else s.currDY)
  {
    DecodeFromSelection(s, data, 0);
    ReachesOptions(data);
    ReachesValues(data);
  }

  /** Gravity comes from the last field, and the cloth follows it. */
  lemma FrameGravity(s: State, data: string)
    requires s.cloth.Valid() && s.cloth.gravity == s.gravity
    ensures var r := ProcessSerial(s, data);
      && r.gravity == (if |data| > F_VAL then ConvertAndScale(data[F_VAL]) as real else s.gravity)
      && r.cloth.gravity == r.gravity
  {
    DecodeFromGravity(s, data, 0);
    ReachesValues(data);
  }

  /** Whether the line completes a held reset. The reset field is read last,
      after gravity, so a line must reach the gravity field for it to count. */
  predicate Fires(s: State, data: string)
  {
    |data| > F_VAL && Held(s, data[R_SWITCH])
  }

  /** The reset field is debounced: the counter follows the field when the
      line is complete, and a held reset sends every handle home; the rest of
      the mesh never moves. */
  lemma FrameReset(s: State, data: string)
    requires s.cloth.Valid()
    ensures var r := ProcessSerial(s, data);
      && r.numResets == (if |data| > F_VAL then NextCount(s.numResets, data[R_SWITCH]) else s.numResets)
      && (forall i, j :: 0 <= i < s.cloth.n && 0 <= j < s.cloth.n && !IsCorner(s.cloth.n, i, j) ==>
            r.cloth.grid[i][j] == s.cloth.grid[i][j])
      && (s.cloth.n >= 2 ==> forall h :: IsHandle(h) ==> var q := HandleParticle(s.cloth, h);
            HandleParticle(r.cloth, h)
            == q.(pos := if Fires(s, data) then HomePosition(s.cloth, h) else q.pos,
                  fixed := HandleParticle(r.cloth, h).fixed))
  {
    DecodeFromCount(s, data, 0);
    DecodeFromInterior(s, data, 0);
    ReachesValues(data);
    if s.cloth.n >= 2 {
      DecodeFromHandles(s, data, 0);
      assert FiresFrom(s, data, 0) == Fires(s, data);
    }
  }

  /** An empty line changes nothing. */
  lemma EmptyLine(s: State)
    requires s.cloth.Valid()
    ensures ProcessSerial(s, []) == s
  {
  }

  /*---------------------------------------------------------------------------
   * Line framing
   *-------------------------------------------------------------------------*/

  /** One character from the serial port: a newline decodes the buffered
      line and empties the buffer (also when decoding stopped short), any
      other character is appended. What a whole line does is stated by
      FeedLine and FeedPartialLine, and field by field by the Frame* lemmas. */
  function SerialEvent(s: State, ch: char): (r: State)
    requires s.cloth.Valid()
    ensures r.cloth.Valid()
    ensures ch == '\n' ==> r == ProcessSerial(s, s.buffer).(buffer := [])
    ensures ch != '\n' ==> r == s.(buffer := s.buffer + [ch])
  {
    if ch == '\n' then ProcessSerial(s, s.buffer).(buffer := [])
    else s.(buffer := s.buffer + [ch])
  }

  /** A run of characters, in arrival order. */
  function Feed(s: State, chars: string): (r: State)
    requires s.cloth.Valid()
    ensures r.cloth.Valid() && r.cloth.n == s.cloth.n
    ensures '\n' !in s.buffer ==> '\n' !in r.buffer
    decreases |chars|
  {
    if chars == [] then s else Feed(SerialEvent(s, chars[0]), chars[1..])
  }

  /** Characters without a newline only accumulate in the buffer. */
  lemma {:induction false} FeedPartialLine(s: State, chars: string)
    requires s.cloth.Valid() && '\n' !in chars
    ensures Feed(s, chars) == s.(buffer := s.buffer + chars)
    decreases |chars|
  {
    if chars != [] {
      FeedPartialLine(SerialEvent(s, chars[0]), chars[1..]);
      assert s.buffer + [chars[0]] + chars[1..] == s.buffer + chars;
    }
  }

  /** A line followed by a newline is decoded as a whole, together with what
      was already buffered, and leaves the buffer empty; what follows the
      newline starts a new line. */
  lemma {:induction false} FeedLine(s: State, line: string, rest: string)
    requires s.cloth.Valid() && '\n' !in line
    ensures var t := s.(buffer := s.buffer + line);
      Feed(s, line + ['\n'] + rest) == Feed(ProcessSerial(t, t.buffer).(buffer := []), rest)
    decreases |line|
  {
    if line == [] {
      assert line + ['\n'] + rest == ['\n'] + rest;
      assert s.(buffer := s.buffer + line) == s;
    } else {
      var s' := s.(buffer := s.buffer + [line[0]]);
      assert SerialEvent(s, line[0]) == s';
      assert line + ['\n'] + rest == [line[0]] + (line[1..] + ['\n'] + rest);
      assert s'.buffer + line[1..] == s.buffer + line;
      assert s'.(buffer := s'.buffer + line[1..]) == s.(buffer := s.buffer + line);
      FeedLine(s', line[1..], rest);
    }
  }

  /*---------------------------------------------------------------------------
   * Per-frame update
   *-------------------------------------------------------------------------*/

  /** Applies the pending deltas to the selected handle: scaled by
      COORD_MULTIPLIER they offset the handle, which is left at rest, and the
      deltas are consumed. With no pending delta the handle is only stopped. */
  function MoveSelectedHandle(s: State): (r: State)
    requires s.cloth.Valid()
    ensures r == s.(cloth := r.cloth, currDX := 0, currDY := 0) && r.cloth.Valid()
    ensures !IsHandle(s.selected) ==> r.cloth == s.cloth
    ensures IsHandle(s.selected) ==> var p := HandleParticle(s.cloth, s.selected);
      && SameExcept(s.cloth, r.cloth, CornerOf(s.cloth.n, s.selected))
      && HandleParticle(r.cloth, s.selected)
         == p.(pos := p.pos.Plus(Vec3((COORD_MULTIPLIER * s.currDX) as real, (COORD_MULTIPLIER * s.currDY) as real, 0.0)), vel := ZERO)
  {
    var dx := s.currDX * COORD_MULTIPLIER;
    var dy := s.currDY * COORD_MULTIPLIER;
    if dx == 0 && dy == 0 then
      s.(currDX := dx, currDY := dy, cloth := SetHandleVelocity(s.cloth, s.selected, 0.0, 0.0, 0.0))
    else
      var moved := OffsetHandlePosition(s.cloth, s.selected, dx as real, dy as real, 0.0);
      s.(cloth := ClearHandleVelocity(moved, s.selected), currDX := 0, currDY := 0)
  }

  /** Once the deltas are consumed, moving again changes nothing. */
  lemma MoveSelectedHandleIdempotent(s: State)
    requires s.cloth.Valid()
    ensures MoveSelectedHandle(MoveSelectedHandle(s)) == MoveSelectedHandle(s)
  {
    var once := MoveSelectedHandle(s);
    if IsHandle(s.selected) {
      var at := CornerOf(once.cloth.n, s.selected);
      assert SetHandleVelocity(once.cloth, s.selected, 0.0, 0.0, 0.0) == WithParticle(once.cloth, at, once.cloth.At(at));
      WithParticleSame(once.cloth, at);
    }
  }

  /** One frame: the characters that arrived, a physics step (`advanced` is
      the grid the engine produces) and the move of the selected handle. */
  function Draw(s: State, input: string, advanced: Grid): (r: State)
    requires s.cloth.Valid() && Shaped(advanced, s.cloth.n)
    ensures r.cloth.Valid() && r.currDX == 0 && r.currDY == 0
  {
    var fed := Feed(s, input);
    MoveSelectedHandle(fed.(cloth := Step(fed.cloth, advanced)))
  }

  /** Every event and every frame keeps the state valid. */
  lemma {:induction false} FeedKeepsValid(s: State, chars: string)
    requires s.Valid()
    ensures Feed(s, chars).Valid()
    decreases |chars|
  {
    if chars != [] {
      SerialEventKeepsValid(s, chars[0]);
      FeedKeepsValid(SerialEvent(s, chars[0]), chars[1..]);
    }
  }

  lemma SerialEventKeepsValid(s: State, ch: char)
    requires s.Valid()
    ensures SerialEvent(s, ch).Valid()
  {
    if ch == '\n' {
      DecodeFromConsistent(s, s.buffer, 0);
    }
  }

  lemma DrawKeepsValid(s: State, input: string, advanced: Grid)
    requires s.Valid() && Shaped(advanced, s.cloth.n)
    ensures Draw(s, input, advanced).Valid()
  {
    FeedKeepsValid(s, input);
  }
}

=== FILE: multitouch.dfy ===
/** The multi-touch controller: a four-slot link table pairs each handle with
    the touch point dragging it; dashboard buttons toggle the locks of the
    dragged handles and the display options, and switch between the live
    cloth and a gallery of saved snapshots. */
module FaceClothMultiTouch {
  import opened ImageCloth

  /** How near a touch point must be to a handle to grab it. */
  const SELECTION_RANGE: int := 50
  /** The link-table entry of a handle that no touch point drags. */
  const UNLINKED: int := -1
  const GRAVITY_INCREMENT: real := 0.1

  // Application modes.
  const SNAPSHOT: int := 0
  const GALLERY: int := 1

  // Processing's key codes for the arrow keys.
  const UP: int := 38
  const DOWN: int := 40

  /** A touch point as the touch library reports it: its id and its centre
      in whole pixels. */
  datatype TouchPoint = TouchPoint(id: int, cx: int, cy: int)

  /** The touch library's test of whether a touch point lies within a range
      of a position; the model takes it as a parameter. */
  type Nearness = (TouchPoint, Vec2, int) -> bool

  datatype State = State(cloth: Cloth, links: seq<int>, gravity: real,
                         clearFrame: bool, fadeFrame: bool, drawHandles: bool,
                         mode: int, nextImageIndex: int)
  {
    /** What holds between events: one slot per handle, no touch point
        dragging two handles, never both clearing and fading the frame, one
        of the two modes, and the cloth has the applet's gravity. */
    predicate Valid()
    {
      && cloth.Valid()
      && |links| == 4
      && LinksDistinct(links)
      && !(clearFrame && fadeFrame)
      && (mode == SNAPSHOT || mode == GALLERY)
      && cloth.gravity == gravity
    }
  }

  /** No touch id sits in two slots. */
  predicate LinksDistinct(links: seq<int>)
  {
    forall a, b :: 0 <= a < b < |links| && links[a] != UNLINKED ==> links[a] != links[b]
  }

  /** The applet's state after `setup`, given the cloth it built (with no
      gravity) and the index the next saved image gets: no handle is linked,
      the frame is cleared and not faded, and the live cloth is shown. */
  function Init(cloth: Cloth, nextImageIndex: int): (s: State)
    requires cloth.Valid() && cloth.gravity == 0.0
    ensures s.Valid() && s.mode == SNAPSHOT && s.clearFrame && !s.fadeFrame && !s.drawHandles
    ensures |s.links| == 4 && forall h :: 0 <= h < 4 ==> s.links[h] == UNLINKED
  {
    State(cloth, [UNLINKED, UNLINKED, UNLINKED, UNLINKED], 0.0, true, false, false, SNAPSHOT, nextImageIndex)
  }

  /** `setup`: a 20×20 mesh over a 640×480 capture in a 1024×768 applet, in
      yellow, with no gravity and a drag of 0.05. */
  function Setup(nextImageIndex: int): (s: State)
    ensures s.Valid() && s.cloth.n == 20
    ensures forall h :: IsHandle(h) ==> HandleIsFixed(s.cloth, h)
  {
    Init(New(1024, 768, Rgb(255, 255, 0), 20, 640, 480, 0.0, 0.05).value, nextImageIndex)
  }

  /*---------------------------------------------------------------------------
   * Linking touch points to handles
   *-------------------------------------------------------------------------*/

  /** The position of the touch point with the given id in the collection,
      or -1 when there is none. */
  function IndexOfId(touches: seq<TouchPoint>, id: int): (k: int)
    ensures -1 <= k < |touches|
    ensures k == -1 <==> forall t :: 0 <= t < |touches| ==> touches[t].id != id
    ensures k != -1 ==> touches[k].id == id && forall t :: 0 <= t < k ==> touches[t].id != id
    decreases |touches|
  {
    if touches == [] then -1
    else if touches[0].id == id then 0
    else
      var k := IndexOfId(touches[1..], id);
      if k == -1 then -1 else k + 1
  }

  /** Whether a slot holds the id of a touch point that still exists. */
  predicate Tracks(touches: seq<TouchPoint>, id: int)
  {
    id != UNLINKED && IndexOfId(touches, id) != -1
  }

  /** Where a tracked touch point holds its handle: at its centre, in the
      plane of the applet. */
  function CentreOf(touches: seq<TouchPoint>, id: int): Vec3
    requires Tracks(touches, id)
  {
    var tp := touches[IndexOfId(touches, id)];
    Vec3(tp.cx as real, tp.cy as real, 0.0)
  }

  /** A slot after the first pass: a link whose touch point is gone is
      cleared, every other entry is kept. */
  function Refreshed(touches: seq<TouchPoint>, id: int): (r: int)
    ensures r == UNLINKED || r == id
    ensures r == id <==> id == UNLINKED || Tracks(touches, id)
  {
    if id != UNLINKED && IndexOfId(touches, id) == -1 then UNLINKED else id
  }

  /** The first pass on slot `i`: a handle whose touch point still exists is
      moved to the touch point's centre and stopped; a link whose touch point
      is gone is dropped. */
  function RefreshSlot(s: State, touches: seq<TouchPoint>, i: int): (r: State)
    requires s.cloth.Valid() && |s.links| == 4 && 0 <= i < 4
    ensures r == s.(cloth := r.cloth, links := r.links) && r.cloth.Valid()
    ensures r.links == s.links[i := Refreshed(touches, s.links[i])]
    ensures !Tracks(touches, s.links[i]) ==> r.cloth == s.cloth
    ensures Tracks(touches, s.links[i]) ==>
      && SameExcept(s.cloth, r.cloth, CornerOf(s.cloth.n, i))
      && HandleParticle(r.cloth, i) == HandleParticle(s.cloth, i).(pos := CentreOf(touches, s.links[i]), vel := ZERO)
  {
    var id := s.links[i];
    if id == UNLINKED then s
    else
      var k := IndexOfId(touches, id);
      if k != -1 then
        var tp := touches[k];
        var moved := SetHandlePosition(s.cloth, i, tp.cx as real, tp.cy as real, 0.0);
        s.(cloth := ClearHandleVelocity(moved, i))
      else s.(links := s.links[i := UNLINKED])
  }

  /** What the first pass from slot `i` on does: a link whose touch point
      is gone is dropped, a handle whose touch point still exists moves to
      the touch point's centre at rest, and nothing else changes. */
  ghost predicate Follows(s: State, r: State, touches: seq<TouchPoint>, i: nat)
    requires s.cloth.Valid() && |s.links| == 4
  {
    && r == s.(cloth := r.cloth, links := r.links) && r.cloth.Valid() && |r.links| == 4
    && r.cloth == s.cloth.(grid := r.cloth.grid)
    && (forall h :: 0 <= h < 4 ==> r.links[h] == if h < i then s.links[h] else Refreshed(touches, s.links[h]))
    && (forall a, b :: 0 <= a < s.cloth.n && 0 <= b < s.cloth.n && !IsCorner(s.cloth.n, a, b) ==>
          r.cloth.grid[a][b] == s.cloth.grid[a][b])
    && (s.cloth.n >= 2 ==> forall h :: IsHandle(h) ==>
          HandleParticle(r.cloth, h)
          == if i <= h && Tracks(touches, s.links[h])
             then HandleParticle(s.cloth, h).(pos := CentreOf(touches, s.links[h]), vel := ZERO)
             else HandleParticle(s.cloth, h))
  }

  /** The first pass from slot `i` on. */
  function RefreshFrom(s: State, touches: seq<TouchPoint>, i: nat): (r: State)
    requires s.cloth.Valid() && |s.links| == 4 && i <= 4
    ensures Follows(s, r, touches, i)
    decreases 4 - i
  {
    if i == 4 then s
    else
      var m := RefreshSlot(s, touches, i);
      var r := RefreshFrom(m, touches, i + 1);
      RefreshStep(s, touches, i, m, r);
      r
  }

  /** One slot of the first pass followed by the rest of it. */
  lemma RefreshStep(s: State, touches: seq<TouchPoint>, i: nat, m: State, r: State)
    requires s.cloth.Valid() && |s.links| == 4 && i < 4
    requires m == RefreshSlot(s, touches, i) && Follows(m, r, touches, i + 1)
    ensures Follows(s, r, touches, i)
  {
    SlotKeeps(s, touches, i);
    var c := s.cloth;
    assert m.cloth == c.(grid := m.cloth.grid) && r.cloth == c.(grid := r.cloth.grid);
    forall h | 0 <= h < 4
      ensures r.links[h] == if h < i then s.links[h] else Refreshed(touches, s.links[h])
    {
      assert r.links[h] == if h < i + 1 then m.links[h] else Refreshed(touches, m.links[h]);
    }
    forall a, b | 0 <= a < c.n && 0 <= b < c.n && !IsCorner(c.n, a, b)
      ensures r.cloth.grid[a][b] == c.grid[a][b]
    {
      assert r.cloth.grid[a][b] == m.cloth.grid[a][b];
    }
    if c.n >= 2 {
      forall h | IsHandle(h)
        ensures HandleParticle(r.cloth, h)
          == if i <= h && Tracks(touches, s.links[h])
             then HandleParticle(c, h).(pos := CentreOf(touches, s.links[h]), vel := ZERO)
             else HandleParticle(c, h)
      {
        if h != i {
          assert m.links[h] == s.links[h];
        }
      }
    }
  }

  /** One slot of the first pass leaves every particle but its handle's
      alone. */
  lemma SlotKeeps(s: State, touches: seq<TouchPoint>, i: nat)
    requires s.cloth.Valid() && |s.links| == 4 && i < 4
    ensures var m := RefreshSlot(s, touches, i);
      && (forall a, b :: 0 <= a < s.cloth.n && 0 <= b < s.cloth.n && !IsCorner(s.cloth.n, a, b) ==>
            m.cloth.grid[a][b] == s.cloth.grid[a][b])
      && (s.cloth.n >= 2 ==> forall h :: IsHandle(h) && h != i ==> HandleParticle(m.cloth, h) == HandleParticle(s.cloth, h))
  {
    var m := RefreshSlot(s, touches, i);
    if Tracks(touches, s.links[i]) {
      if s.cloth.n >= 2 {
        forall h | IsHandle(h) && h != i
          ensures HandleParticle(m.cloth, h) == HandleParticle(s.cloth, h)
        {
          OtherCornerKept(s.cloth, m.cloth, i, h);
        }
      }
      forall a, b | 0 <= a < s.cloth.n && 0 <= b < s.cloth.n && !IsCorner(s.cloth.n, a, b)
        ensures m.cloth.grid[a][b] == s.cloth.grid[a][b]
      {
        assert Index(a, b) != CornerOf(s.cloth.n, i);
      }
    }
  }

  /** Whether touch point `tp` may be linked to a handle at `pos`: no slot
      holds its id, and it is near the handle. */
  predicate Qualifies(links: seq<int>, tp: TouchPoint, pos: Vec2, near: Nearness)
  {
    tp.id !in links && near(tp, pos, SELECTION_RANGE)
  }

  /** The second pass's scan for slot `i`, from touch point `k` on: each
      qualifying touch point is linked in turn, replacing the one before, so
      the table only ever changes in slot `i`, and to an id that no other
      slot holds. */
  function ScanFrom(links: seq<int>, i: int, touches: seq<TouchPoint>, pos: Vec2, near: Nearness, k: nat): (r: seq<int>)
    requires 0 <= i < |links| && k <= |touches|
    ensures |r| == |links| && forall j :: 0 <= j < |links| && j != i ==> r[j] == links[j]
    ensures r[i] != links[i] ==>
      && (exists t :: k <= t < |touches| && touches[t].id == r[i] && near(touches[t], pos, SELECTION_RANGE))
      && (forall j :: 0 <= j < |links| && j != i ==> links[j] != r[i])
    decreases |touches| - k
  {
    if k == |touches| then links
    else
      var tp := touches[k];
      var next := if Qualifies(links, tp, pos, near) then links[i := tp.id] else links;
      ScanFrom(next, i, touches, pos, near, k + 1)
  }

  /** Some touch point with this id is near `pos`. */
  predicate NearLink(touches: seq<TouchPoint>, id: int, pos: Vec2, near: Nearness)
  {
    exists t :: 0 <= t < |touches| && touches[t].id == id && near(touches[t], pos, SELECTION_RANGE)
  }

  /** Writing into one slot an id that no other slot holds keeps the table
      free of duplicates. */
  lemma ReplaceKeepsDistinct(links: seq<int>, i: int, v: int)
    requires LinksDistinct(links) && 0 <= i < |links|
    requires forall j :: 0 <= j < |links| && j != i ==> links[j] != v
    ensures LinksDistinct(links[i := v])
  {
  }

  /** What the second pass from slot `i` on does: only slots from `i` on
      that were unlinked change, each to the id of a touch point near its
      handle, and the table stays free of duplicates. */
  ghost predicate MakesLinks(s: State, r: State, touches: seq<TouchPoint>, near: Nearness, i: nat)
    requires s.cloth.Valid() && |s.links| == 4
  {
    && r == s.(links := r.links) && |r.links| == 4
    && (forall h :: 0 <= h < 4 && (h < i || s.links[h] != UNLINKED) ==> r.links[h] == s.links[h])
    && (forall h :: i <= h < 4 && s.links[h] == UNLINKED && r.links[h] != UNLINKED ==>
          NearLink(touches, r.links[h], GetHandlePosition(s.cloth, h), near))
    && (LinksDistinct(s.links) ==> LinksDistinct(r.links))
  }

  /** The second pass from slot `i` on: every slot still unlinked scans the
      touch points against the position of its handle. */
  function MakeLinksFrom(s: State, touches: seq<TouchPoint>, near: Nearness, i: nat): (r: State)
    requires s.cloth.Valid() && |s.links| == 4 && i <= 4
    ensures MakesLinks(s, r, touches, near, i)
    decreases 4 - i
  {
    if i == 4 then s
    else
      var m := if s.links[i] == UNLINKED
               then s.(links := ScanFrom(s.links, i, touches, GetHandlePosition(s.cloth, i), near, 0))
               else s;
      var r := MakeLinksFrom(m, touches, near, i + 1);
      MakeLinksStep(s, touches, near, i, m, r);
      r
  }

  /** One slot of the second pass followed by the rest of it. */
  lemma MakeLinksStep(s: State, touches: seq<TouchPoint>, near: Nearness, i: nat, m: State, r: State)
    requires s.cloth.Valid() && |s.links| == 4 && i < 4
    requires m == if s.links[i] == UNLINKED
                  then s.(links := ScanFrom(s.links, i, touches, GetHandlePosition(s.cloth, i), near, 0))
                  else s
    requires MakesLinks(m, r, touches, near, i + 1)
    ensures MakesLinks(s, r, touches, near, i)
  {
    assert m.cloth == s.cloth;
    assert forall h :: 0 <= h < 4 && h != i ==> m.links[h] == s.links[h];
    if s.links[i] == UNLINKED && m.links[i] != UNLINKED {
      assert NearLink(touches, m.links[i], GetHandlePosition(s.cloth, i), near);
    }
    if LinksDistinct(s.links) && m.links != s.links {
      ReplaceKeepsDistinct(s.links, i, m.links[i]);
      assert m.links == s.links[i := m.links[i]];
    }
  }

  /** `linkPoints`, run once per frame: the first pass follows or drops the
      existing links, the second links free handles to free touch points
      near them. A link whose touch point still exists is never replaced,
      and no touch point ends up dragging two handles. */
  function LinkPoints(s: State, touches: seq<TouchPoint>, near: Nearness): (r: State)
    requires s.cloth.Valid() && |s.links| == 4
    ensures r == s.(cloth := r.cloth, links := r.links) && |r.links| == 4
    ensures r.cloth.Valid() && r.cloth == s.cloth.(grid := r.cloth.grid)
    ensures LinksDistinct(s.links) ==> LinksDistinct(r.links)
    ensures forall h :: 0 <= h < 4 && Tracks(touches, s.links[h]) ==> r.links[h] == s.links[h]
    ensures s.cloth.n >= 2 ==> forall h :: 0 <= h < 4 && !Tracks(touches, s.links[h]) && r.links[h] != UNLINKED ==>
      NearLink(touches, r.links[h], GetHandlePosition(s.cloth, h), near)
    ensures forall a, b :: 0 <= a < s.cloth.n && 0 <= b < s.cloth.n && !IsCorner(s.cloth.n, a, b) ==>
      r.cloth.grid[a][b] == s.cloth.grid[a][b]
    ensures s.cloth.n >= 2 ==> forall h :: IsHandle(h) ==>
      HandleParticle(r.cloth, h)
      == if Tracks(touches, s.links[h])
         then HandleParticle(s.cloth, h).(pos := CentreOf(touches, s.links[h]), vel := ZERO)
         else HandleParticle(s.cloth, h)
  {
    var refreshed := RefreshFrom(s, touches, 0);
    var r := MakeLinksFrom(refreshed, touches, near, 0);
    LinkPointsSpec(s, touches, near, refreshed, r);
    r
  }

  /** How the two passes combine. */
  lemma LinkPointsSpec(s: State, touches: seq<TouchPoint>, near: Nearness, refreshed: State, r: State)
    requires s.cloth.Valid() && |s.links| == 4
    requires Follows(s, refreshed, touches, 0) && MakesLinks(refreshed, r, touches, near, 0)
    ensures r == s.(cloth := r.cloth, links := r.links) && |r.links| == 4
    ensures r.cloth.Valid() && r.cloth == s.cloth.(grid := r.cloth.grid)
    ensures LinksDistinct(s.links) ==> LinksDistinct(r.links)
    ensures forall h :: 0 <= h < 4 && Tracks(touches, s.links[h]) ==> r.links[h] == s.links[h]
    ensures s.cloth.n >= 2 ==> forall h :: 0 <= h < 4 && !Tracks(touches, s.links[h]) && r.links[h] != UNLINKED ==>
      NearLink(touches, r.links[h], GetHandlePosition(s.cloth, h), near)
    ensures forall a, b :: 0 <= a < s.cloth.n && 0 <= b < s.cloth.n && !IsCorner(s.cloth.n, a, b) ==>
      r.cloth.grid[a][b] == s.cloth.grid[a][b]
    ensures s.cloth.n >= 2 ==> forall h :: IsHandle(h) ==>
      HandleParticle(r.cloth, h)
      == if Tracks(touches, s.links[h])
         then HandleParticle(s.cloth, h).(pos := CentreOf(touches, s.links[h]), vel := ZERO)
         else HandleParticle(s.cloth, h)
  {
    assert r.cloth == refreshed.cloth;
    if LinksDistinct(s.links) {
      assert LinksDistinct(refreshed.links) by {
        forall a, b | 0 <= a < b < 4 && refreshed.links[a] != UNLINKED
          ensures refreshed.links[a] != refreshed.links[b]
        {
          assert refreshed.links[a] == s.links[a];
        }
      }
    }
    if s.cloth.n >= 2 {
      forall h | 0 <= h < 4 && !Tracks(touches, s.links[h]) && r.links[h] != UNLINKED
        ensures NearLink(touches, r.links[h], GetHandlePosition(s.cloth, h), near)
      {
        assert refreshed.links[h] == UNLINKED;
        assert HandleParticle(refreshed.cloth, h) == HandleParticle(s.cloth, h);
      }
    }
  }

  /** The id of the last touch point that qualifies for a slot of `links` at
      `pos`, or UNLINKED when none does. */
  function LastQualifying(links: seq<int>, touches: seq<TouchPoint>, pos: Vec2, near: Nearness): (id: int)
    ensures (forall t :: 0 <= t < |touches| ==> !Qualifies(links, touches[t], pos, near)) ==> id == UNLINKED
    ensures (exists t :: 0 <= t < |touches| && Qualifies(links, touches[t], pos, near)) ==>
      exists t :: 0 <= t < |touches| && touches[t].id == id && Qualifies(links, touches[t], pos, near)
                  && forall u :: t < u < |touches| ==> !Qualifies(links, touches[u], pos, near)
    decreases |touches|
  {
    if touches == [] then UNLINKED
    else
      var last := touches[|touches| - 1];
      if Qualifies(links, last, pos, near) then last.id
      else LastQualifying(links, touches[..|touches| - 1], pos, near)
  }

  /** Touch ids as the touch library hands them out: unique, and never the
      UNLINKED marker. */
  predicate TouchIdsOk(touches: seq<TouchPoint>)
  {
    && (forall a, b :: 0 <= a < b < |touches| ==> touches[a].id != touches[b].id)
    && (forall a :: 0 <= a < |touches| ==> touches[a].id != UNLINKED)
  }

  /** With touch ids as the library hands them out, the scan for a free slot
      links the last touch point that qualifies: there is no `break`, so each
      later one replaces the one before. */
  lemma ScanChoosesLast(links: seq<int>, i: int, touches: seq<TouchPoint>, pos: Vec2, near: Nearness)
    requires 0 <= i < |links| && links[i] == UNLINKED && TouchIdsOk(touches)
    ensures ScanFrom(links, i, touches, pos, near, 0) == links[i := LastQualifying(links, touches, pos, near)]
  {
    assert touches[..0] == [];
    assert links[i := LastQualifying(links, touches[..0], pos, near)] == links;
    ScanChoosesLastFrom(links, i, touches, pos, near, 0);
  }

  lemma {:induction false} ScanChoosesLastFrom(links: seq<int>, i: int, touches: seq<TouchPoint>, pos: Vec2, near: Nearness, k: nat)
    requires 0 <= i < |links| && links[i] == UNLINKED && k <= |touches| && TouchIdsOk(touches)
    ensures ScanFrom(links[i := LastQualifying(links, touches[..k], pos, near)], i, touches, pos, near, k)
         == links[i := LastQualifying(links, touches, pos, near)]
    decreases |touches| - k
  {
    if k < |touches| {
      var chosen := LastQualifying(links, touches[..k], pos, near);
      var cur := links[i := chosen];
      var tp := touches[k];
      LastQualifyingIsEarlier(links, touches, pos, near, k);
      assert tp.id in cur <==> tp.id in links by {
        if tp.id in cur {
          var j :| 0 <= j < |cur| && cur[j] == tp.id;
          assert j != i;
        }
        if tp.id in links {
          var j :| 0 <= j < |links| && links[j] == tp.id;
          assert j != i;
          assert cur[j] == tp.id;
        }
      }
      assert touches[..k + 1][..k] == touches[..k];
      assert touches[..k + 1][k] == tp;
      var next := if Qualifies(cur, tp, pos, near) then cur[i := tp.id] else cur;
      assert next == links[i := LastQualifying(links, touches[..k + 1], pos, near)];
      ScanChoosesLastFrom(links, i, touches, pos, near, k + 1);
    } else {
      assert touches[..k] == touches;
    }
  }

  /** The touch point chosen among the first `k` is none or one of them, so
      its id differs from the `k`-th's. */
  lemma LastQualifyingIsEarlier(links: seq<int>, touches: seq<TouchPoint>, pos: Vec2, near: Nearness, k: nat)
    requires k < |touches| && TouchIdsOk(touches)
    ensures LastQualifying(links, touches[..k], pos, near) != touches[k].id
  {
    var chosen := LastQualifying(links, touches[..k], pos, near);
    if chosen != UNLINKED {
      var t :| 0 <= t < k && touches[..k][t].id == chosen;
      assert touches[t].id == chosen;
    }
  }

  /** In the second pass a free slot gets exactly the last touch point that
      qualifies against the table as it stands when the slot's turn comes. */
  lemma MakeLinksSlot(s: State, touches: seq<TouchPoint>, near: Nearness, i: nat)
    requires s.cloth.Valid() && |s.links| == 4 && i < 4 && s.links[i] == UNLINKED && TouchIdsOk(touches)
    ensures MakeLinksFrom(s, touches, near, i)
         == MakeLinksFrom(s.(links := s.links[i := LastQualifying(s.links, touches, GetHandlePosition(s.cloth, i), near)]),
                          touches, near, i + 1)
  {
    ScanChoosesLast(s.links, i, touches, GetHandlePosition(s.cloth, i), near);
  }

  /*---------------------------------------------------------------------------
   * Per-frame update
   *-------------------------------------------------------------------------*/

  /** Before each frame: in the live mode, a physics step (`advanced` is the
      grid the engine produces) and then the linking; in the gallery mode,
      nothing. */
  function Pre(s: State, advanced: Grid, touches: seq<TouchPoint>, near: Nearness): (r: State)
    requires s.cloth.Valid() && |s.links| == 4 && Shaped(advanced, s.cloth.n)
    ensures s.mode != SNAPSHOT ==> r == s
    ensures r == s.(cloth := r.cloth, links := r.links) && r.cloth == s.cloth.(grid := r.cloth.grid)
    ensures s.Valid() ==> r.Valid()
    ensures r.cloth.Valid() && |r.links| == 4
    ensures s.mode == SNAPSHOT ==>
      forall a, b :: 0 <= a < s.cloth.n && 0 <= b < s.cloth.n && !IsCorner(s.cloth.n, a, b) ==>
        r.cloth.grid[a][b] == advanced[a][b]
    ensures s.mode == SNAPSHOT ==>
      forall h :: 0 <= h < 4 && Tracks(touches, s.links[h]) ==> r.links[h] == s.links[h]
    ensures s.mode == SNAPSHOT && s.cloth.n >= 2 ==> var stepped := Step(s.cloth, advanced);
      && (forall h :: IsHandle(h) ==>
            HandleParticle(r.cloth, h)
            == if Tracks(touches, s.links[h])
               then HandleParticle(stepped, h).(pos := CentreOf(touches, s.links[h]), vel := ZERO)
               else HandleParticle(stepped, h))
      && (forall h :: 0 <= h < 4 && !Tracks(touches, s.links[h]) && r.links[h] != UNLINKED ==>
            NearLink(touches, r.links[h], GetHandlePosition(stepped, h), near))
  {
    if s.mode == SNAPSHOT then
      var t := s.(cloth := Step(s.cloth, advanced));
      var r := LinkPoints(t, touches, near);
      PreLinked(s, advanced, touches, near, t, r);
      r
    else s
  }

  /** The snapshot branch of `Pre`: what `LinkPoints` promises about the
      stepped state, restated against the state before the step. */
  lemma PreLinked(s: State, advanced: Grid, touches: seq<TouchPoint>, near: Nearness, t: State, r: State)
    requires s.cloth.Valid() && |s.links| == 4 && Shaped(advanced, s.cloth.n)
    requires t == s.(cloth := Step(s.cloth, advanced)) && r == LinkPoints(t, touches, near)
    ensures forall a, b :: 0 <= a < s.cloth.n && 0 <= b < s.cloth.n && !IsCorner(s.cloth.n, a, b) ==>
      r.cloth.grid[a][b] == advanced[a][b]
    ensures forall h :: 0 <= h < 4 && Tracks(touches, s.links[h]) ==> r.links[h] == s.links[h]
    ensures s.cloth.n >= 2 ==> forall h :: IsHandle(h) ==>
      HandleParticle(r.cloth, h)
      == if Tracks(touches, s.links[h])
         then HandleParticle(t.cloth, h).(pos := CentreOf(touches, s.links[h]), vel := ZERO)
         else HandleParticle(t.cloth, h)
    ensures s.cloth.n >= 2 ==> forall h :: 0 <= h < 4 && !Tracks(touches, s.links[h]) && r.links[h] != UNLINKED ==>
      NearLink(touches, r.links[h], GetHandlePosition(t.cloth, h), near)
  {
    assert t.cloth.grid == advanced && t.links == s.links && t.cloth.n == s.cloth.n;
  }

  /*---------------------------------------------------------------------------
   * Dashboard buttons and keys
   *-------------------------------------------------------------------------*/

  /** `r` is `c` with the lock of every linked handle from slot `i` on
      flipped: only fixed flags change, and only at those corners. */
  ghost predicate FlipsLinked(c: Cloth, r: Cloth, links: seq<int>, i: nat)
    requires c.Valid() && |links| == 4
  {
    && r.Valid() && SameButFlags(c, r)
    && (forall a, b :: 0 <= a < c.n && 0 <= b < c.n && !IsCorner(c.n, a, b) ==> r.grid[a][b] == c.grid[a][b])
    && (c.n >= 2 ==> forall h :: IsHandle(h) ==>
          HandleIsFixed(r, h) == if i <= h && links[h] != UNLINKED then !HandleIsFixed(c, h) else HandleIsFixed(c, h))
  }

  /** The lock toggle from slot `i` on: each linked handle is flipped between
      fixed and free. */
  function ToggleLinkedFrom(c: Cloth, links: seq<int>, i: nat): (r: Cloth)
    requires c.Valid() && |links| == 4 && i <= 4
    ensures FlipsLinked(c, r, links, i)
    decreases 4 - i
  {
    if i == 4 then c
    else
      var m := if links[i] != UNLINKED then ToggleHandle(c, i) else c;
      ToggleKeepsOthers(c, i);
      ToggleLinkedFrom(m, links, i + 1)
  }

  /** Toggling handle `i` keeps every other handle's lock and every particle
      that is not a corner. */
  lemma ToggleKeepsOthers(c: Cloth, i: int)
    requires c.Valid() && IsHandle(i)
    ensures var r := ToggleHandle(c, i);
      && (forall a, b :: 0 <= a < c.n && 0 <= b < c.n && !IsCorner(c.n, a, b) ==> r.grid[a][b] == c.grid[a][b])
      && (c.n >= 2 ==> forall h :: IsHandle(h) && h != i ==> HandleIsFixed(r, h) == HandleIsFixed(c, h))
  {
    var r := ToggleHandle(c, i);
    forall a, b | 0 <= a < c.n && 0 <= b < c.n && !IsCorner(c.n, a, b)
      ensures r.grid[a][b] == c.grid[a][b]
    {
      assert Index(a, b) != CornerOf(c.n, i);
    }
    if c.n >= 2 {
      forall h | IsHandle(h) && h != i
        ensures HandleIsFixed(r, h) == HandleIsFixed(c, h)
      {
        OtherCornerKept(c, r, i, h);
      }
    }
  }

  /** The lock button: exactly the handles a touch point drags change
      between fixed and free. */
  function ToggleHandleLock(s: State): (r: State)
    requires s.cloth.Valid() && |s.links| == 4
    ensures r == s.(cloth := r.cloth) && r.cloth.Valid() && SameButFlags(s.cloth, r.cloth)
    ensures s.cloth.n >= 2 ==> forall h :: IsHandle(h) ==>
      HandleIsFixed(r.cloth, h) == if s.links[h] != UNLINKED then !HandleIsFixed(s.cloth, h) else HandleIsFixed(s.cloth, h)
    ensures s.Valid() ==> r.Valid()
  {
    s.(cloth := ToggleLinkedFrom(s.cloth, s.links, 0))
  }

  /** Pressing the lock button twice with the same links restores the
      cloth. */
  lemma ToggleHandleLockTwice(s: State)
    requires s.cloth.Valid() && |s.links| == 4 && s.cloth.n >= 2
    ensures ToggleHandleLock(ToggleHandleLock(s)) == s
  {
    ToggleLinkedTwice(s.cloth, s.links);
  }

  lemma ToggleLinkedTwice(c: Cloth, links: seq<int>)
    requires c.Valid() && |links| == 4 && c.n >= 2
    ensures ToggleLinkedFrom(ToggleLinkedFrom(c, links, 0), links, 0) == c
  {
    var once := ToggleLinkedFrom(c, links, 0);
    var r := ToggleLinkedFrom(once, links, 0);
    FlagsBack(c, once, r, links);
  }

  /** Two flips of the same handles put every flag back. */
  lemma FlagsBack(c: Cloth, once: Cloth, r: Cloth, links: seq<int>)
    requires c.Valid() && |links| == 4 && c.n >= 2
    requires FlipsLinked(c, once, links, 0) && FlipsLinked(once, r, links, 0)
    ensures r == c
  {
    SameButFlagsTrans(c, once, r);
    FlagsDecide(c, r);
  }

  /** On a mesh of size two or more, a cloth that differs from `c` only in
      fixed flags, keeps every non-corner particle and reports every handle
      as fixed or free as `c` does, is `c`. */
  lemma FlagsDecide(c: Cloth, r: Cloth)
    requires c.Valid() && r.Valid() && c.n >= 2 && SameButFlags(c, r)
    requires forall a, b :: 0 <= a < c.n && 0 <= b < c.n && !IsCorner(c.n, a, b) ==> r.grid[a][b] == c.grid[a][b]
    requires forall h :: IsHandle(h) ==> HandleIsFixed(r, h) == HandleIsFixed(c, h)
    ensures r == c
  {
    CornersDistinct(c.n);
    forall a | 0 <= a < c.n
      ensures r.grid[a] == c.grid[a]
    {
      forall b | 0 <= b < c.n
        ensures r.grid[a][b] == c.grid[a][b]
      {
        if IsCorner(c.n, a, b) {
          var h :| IsHandle(h) && CornerOf(c.n, h) == Index(a, b);
          assert HandleIsFixed(r, h) == HandleIsFixed(c, h);
        }
      }
    }
    assert r.grid == c.grid;
  }

  /** The clear button: turning frame clearing on turns fading off; turning
      it off leaves fading as it was. The two are never both on afterwards. */
  function ToggleClearFrame(s: State): (r: State)
    ensures r == s.(clearFrame := r.clearFrame, fadeFrame := r.fadeFrame)
    ensures r.clearFrame == !s.clearFrame
    ensures r.fadeFrame == (s.fadeFrame && !r.clearFrame)
    ensures !(r.clearFrame && r.fadeFrame)
    ensures s.Valid() ==> r.Valid()
  {
    var clear := !s.clearFrame;
    s.(clearFrame := clear, fadeFrame := if clear then false else s.fadeFrame)
  }

  /** The fade button, symmetrically. */
  function ToggleFadeFrame(s: State): (r: State)
    ensures r == s.(clearFrame := r.clearFrame, fadeFrame := r.fadeFrame)
    ensures r.fadeFrame == !s.fadeFrame
    ensures r.clearFrame == (s.clearFrame && !r.fadeFrame)
    ensures !(r.clearFrame && r.fadeFrame)
    ensures s.Valid() ==> r.Valid()
  {
    var fade := !s.fadeFrame;
    s.(fadeFrame := fade, clearFrame := if fade then false else s.clearFrame)
  }

  /** Each of the two buttons undoes itself exactly when the other option
      was off: pressing one turns the other off for good. */
  lemma ClearFadeInteraction(s: State)
    ensures ToggleClearFrame(ToggleClearFrame(s)) == s <==> !s.fadeFrame
    ensures ToggleFadeFrame(ToggleFadeFrame(s)) == s <==> !s.clearFrame
  {
  }

  // The three display buttons flip one option each; DisplayTogglesUndo
  // states that each undoes itself and leaves the other options alone.
  function ToggleDrawHandles(s: State): (r: State)
    ensures r == s.(drawHandles := !s.drawHandles)
    ensures s.Valid() ==> r.Valid()
  {
    s.(drawHandles := !s.drawHandles)
  }

  function ToggleDrawOutlines(s: State): (r: State)
    ensures r == s.(cloth := s.cloth.(drawOutlines := !s.cloth.drawOutlines))
    ensures s.Valid() ==> r.Valid()
  {
    s.(cloth := SetDrawOutlines(s.cloth, !GetDrawOutlines(s.cloth)))
  }

  function ToggleDrawMesh(s: State): (r: State)
    ensures r == s.(cloth := s.cloth.(drawMesh := !s.cloth.drawMesh))
    ensures s.Valid() ==> r.Valid()
  {
    s.(cloth := SetDrawMesh(s.cloth, !GetDrawMesh(s.cloth)))
  }

  /** Each display button undoes itself and touches no other option. */
  lemma DisplayTogglesUndo(s: State)
    ensures ToggleDrawHandles(ToggleDrawHandles(s)) == s
    ensures ToggleDrawOutlines(ToggleDrawOutlines(s)) == s
    ensures ToggleDrawMesh(ToggleDrawMesh(s)) == s
    ensures ToggleDrawOutlines(s).cloth.drawMesh == s.cloth.drawMesh && ToggleDrawMesh(s).cloth.drawOutlines == s.cloth.drawOutlines
  {
  }

  /** The key handler: UP and DOWN change gravity and hand it to the cloth;
      space zeroes gravity and sends the corners home, fixed. */
  function KeyPressed(s: State, key: char, keyCode: int): (r: State)
    requires s.cloth.Valid()
    ensures r == s.(gravity := r.gravity, cloth := r.cloth) && r.cloth.Valid()
    ensures keyCode == UP ==> r.gravity == s.gravity + GRAVITY_INCREMENT && r.cloth == s.cloth.(gravity := r.gravity)
    ensures keyCode == DOWN ==> r.gravity == s.gravity - GRAVITY_INCREMENT && r.cloth == s.cloth.(gravity := r.gravity)
    ensures keyCode != UP && keyCode != DOWN && key != ' ' ==> r == s
    ensures keyCode != UP && keyCode != DOWN && key == ' ' ==>
      r.gravity == 0.0 && r.cloth == s.cloth.(gravity := 0.0, grid := r.cloth.grid)
    ensures s.Valid() ==> r.Valid()
  {
    if keyCode == UP then
      var g := s.gravity + GRAVITY_INCREMENT;
      s.(gravity := g, cloth := SetGravity(s.cloth, g))
    else if keyCode == DOWN then
      var g := s.gravity - GRAVITY_INCREMENT;
      s.(gravity := g, cloth := SetGravity(s.cloth, g))
    else if key == ' ' then
      s.(gravity := 0.0, cloth := ResetAndFix(s.cloth))
    else s
  }

  /** Space sends the corners home and fixes them; nothing else moves. */
  lemma SpaceKey(s: State, keyCode: int)
    requires s.cloth.Valid() && keyCode != UP && keyCode != DOWN
    ensures var r := KeyPressed(s, ' ', keyCode);
      && r == s.(gravity := 0.0, cloth := r.cloth)
      && r.cloth == s.cloth.(gravity := 0.0, grid := r.cloth.grid)
      && (s.cloth.n >= 2 ==> forall h :: IsHandle(h) ==>
            HandleParticle(r.cloth, h) == HandleParticle(s.cloth, h).(pos := HomePosition(s.cloth, h), fixed := true))
      && (s.cloth.n == 1 ==>
            r.cloth.grid[0][0] == s.cloth.grid[0][0].(pos := HomePosition(s.cloth, BOTTOM_RIGHT), fixed := true))
      && forall a, b :: 0 <= a < s.cloth.n && 0 <= b < s.cloth.n && !IsCorner(s.cloth.n, a, b) ==>
           r.cloth.grid[a][b] == s.cloth.grid[a][b]
  {
  }

  /** UP then DOWN restores the state. */
  lemma GravityKeysUndo(s: State, key: char)
    requires s.cloth.Valid() && s.cloth.gravity == s.gravity
    ensures KeyPressed(KeyPressed(s, key, UP), key, DOWN) == s
  {
  }

  /*---------------------------------------------------------------------------
   * Gallery
   *-------------------------------------------------------------------------*/

  /** How many of the slideshow's thumbnails hold an image. */
  function CountPresent(thumbs: seq<bool>): (k: nat)
    ensures k <= |thumbs|
  {
    if thumbs == [] then 0
    else CountPresent(thumbs[..|thumbs| - 1]) + (if thumbs[|thumbs| - 1] then 1 else 0)
  }

  /** Saves every thumbnail that holds an image, in slot order, each under
      the next image index. Returns the indices used: consecutive, starting
      at the old next index, one per image. */
  method SaveScreensToDisk(s: State, thumbs: seq<bool>) returns (r: State, saved: seq<int>)
    ensures r == s.(nextImageIndex := s.nextImageIndex + CountPresent(thumbs))
    ensures |saved| == CountPresent(thumbs)
    ensures forall k :: 0 <= k < |saved| ==> saved[k] == s.nextImageIndex + k
  {
    var next := s.nextImageIndex;
    saved := [];
    var i := 0;
    while i < |thumbs|
      invariant 0 <= i <= |thumbs|
      invariant |saved| == CountPresent(thumbs[..i]) && next == s.nextImageIndex + |saved|
      invariant forall k :: 0 <= k < |saved| ==> saved[k] == s.nextImageIndex + k
    {
      assert thumbs[..i + 1][..i] == thumbs[..i];
      if thumbs[i] {
        saved := saved + [next];
        next := next + 1;
      }
      i := i + 1;
    }
    assert thumbs[..i] == thumbs;
    r := s.(nextImageIndex := next);
  }

  /** The gallery button: leaving the live mode saves the thumbnails; the
      mode then moves on by one, modulo 2, so it alternates. */
  method ToggleGallery(s: State, thumbs: seq<bool>) returns (r: State)
    ensures r == s.(mode := r.mode, nextImageIndex := r.nextImageIndex)
    ensures r.mode == JavaRem(s.mode + 1, 2)
    ensures s.mode == SNAPSHOT ==> r.mode == GALLERY && r.nextImageIndex == s.nextImageIndex + CountPresent(thumbs)
    ensures s.mode == GALLERY ==> r.mode == SNAPSHOT && r.nextImageIndex == s.nextImageIndex
    ensures s.Valid() ==> r.Valid()
  {
    r := s;
    if s.mode == SNAPSHOT {
      var saved;
      r, saved := SaveScreensToDisk(s, thumbs);
    }
    r := r.(mode := JavaRem(s.mode + 1, 2));
  }

  /** ASCII lower-casing of one character. */
  function LowerAscii(c: char): (d: char)
    ensures 'A' <= c <= 'Z' ==> d as int == c as int + 32
    ensures !('A' <= c <= 'Z') ==> d == c
  {
    if 'A' <= c <= 'Z' then (c as int + 32) as char else c
  }

  function Lower(s: string): (r: string)
    ensures |r| == |s| && forall k :: 0 <= k < |s| ==> r[k] == LowerAscii(s[k])
  {
    seq(|s|, k requires 0 <= k < |s| => LowerAscii(s[k]))
  }

  predicate EndsWith(s: string, suffix: string)
  {
    |suffix| <= |s| && s[|s| - |suffix|..] == suffix
  }

  /** The saved-image filter: a hidden name (one starting with '.') is
      refused, and otherwise a name is accepted when it ends in ".tif" in
      any letter case. The first character is read unconditionally, so an
      empty name throws: None. */
  function ImageFilter(name: string): (r: Option<bool>)
    ensures r.None? <==> name == []
    ensures r == Some(true) <==>
      && |name| >= 4 && name[0] != '.'
      && forall k :: 0 <= k < 4 ==> LowerAscii(name[|name| - 4 + k]) == ".tif"[k]
  {
    if name == [] then None
    else if name[0] == '.' then Some(false)
    else if EndsWith(Lower(name), ".tif") then Some(true)
    else Some(false)
  }

  /** A visible stem with a ".tif" extension is accepted whatever the case of
      the extension, and a ".tiff" one is refused. */
  lemma TifNames(stem: string)
    requires stem != [] && stem[0] != '.'
    ensures ImageFilter(stem + ".tif") == Some(true)
    ensures ImageFilter(stem + ".TIF") == Some(true)
    ensures ImageFilter(stem + ".tiff") == Some(false)
  {
    TifSuffix(stem, ".tif");
    TifSuffix(stem, ".TIF");
    TiffRefused(stem);
  }

  lemma TiffRefused(stem: string)
    requires stem != [] && stem[0] != '.'
    ensures ImageFilter(stem + ".tiff") == Some(false)
  {
    var name := stem + ".tiff";
    assert name[0] == stem[0];
    assert name[|name| - 4] == 't';
    assert LowerAscii(name[|name| - 4]) != ".tif"[0];
  }

  /** A visible stem followed by a four-letter extension that lower-cases to
      ".tif" is accepted. */
  lemma TifSuffix(stem: string, ext: string)
    requires stem != [] && stem[0] != '.' && |ext| == 4
    requires forall k :: 0 <= k < 4 ==> LowerAscii(ext[k]) == ".tif"[k]
    ensures ImageFilter(stem + ext) == Some(true)
  {
    var name := stem + ext;
    assert name[0] == stem[0];
    forall k | 0 <= k < 4
      ensures LowerAscii(name[|name| - 4 + k]) == ".tif"[k]
    {
      assert name[|name| - 4 + k] == ext[k];
    }
  }
}

=== FILE: trunk.dfy ===
/** The mouse-and-keyboard controller: a handle is grabbed by clicking near
    it, dragged with the mouse and thrown on release; keys toggle the handle
    locks and display options, change gravity and reset the cloth. */
module FaceCloth {
  import opened ImageCloth

  /** Half-width of the square around a handle that a click must land in. */
  const SELECTION_RANGE: int := 20
  const GRAVITY_INCREMENT: real := 0.1
  const NO_HANDLE: int := -1

  // Processing's key codes for the arrow keys.
  const UP: int := 38
  const DOWN: int := 40

  datatype State = State(cloth: Cloth, clearFrame: bool, selected: int, gravity: real)
  {
    predicate Valid()
    {
      cloth.Valid() && (selected == NO_HANDLE || IsHandle(selected))
    }
  }

  function RealAbs(x: real): real { if x < 0.0 then -x else x }

  /** The applet's state after `setup`, given the cloth it built; no handle is
      selected. */
  function Init(cloth: Cloth): (s: State)
    requires cloth.Valid()
    ensures s.Valid() && s.selected == NO_HANDLE && s.clearFrame && s.gravity == 0.0
  {
    State(cloth, true, NO_HANDLE, 0.0)
  }

  /** `setup` builds a 20×20 mesh over a 320×240 capture in a 1024×768
      applet, drawn in yellow, with no gravity and a drag of 0.05: the cloth
      exists and its corners start at their home positions, fixed. */
  lemma SetupCloth()
    ensures var c := New(1024, 768, Rgb(255, 255, 0), 20, 320, 240, 0.0, 0.05);
      && c.Some? && c.value.n == 20
      && (forall h :: IsHandle(h) ==> HandleIsFixed(c.value, h))
      && (forall h :: IsHandle(h) ==> GetHandlePosition(Init(c.value).cloth, h) == Vec2(HomePosition(c.value, h).x, HomePosition(c.value, h).y))
  {
  }

  /** A click at (mx, my) is within range of handle `h`: strictly closer than
      SELECTION_RANGE in both directions. */
  predicate Grabs(c: Cloth, h: int, mx: int, my: int)
    requires c.Valid()
  {
    var v := GetHandlePosition(c, h);
    RealAbs(mx as real - v.x) < SELECTION_RANGE as real && RealAbs(my as real - v.y) < SELECTION_RANGE as real
  }

  /** Selects the lowest-numbered handle within range of the click, or no
      handle if none is. */
  method MousePressed(s: State, mx: int, my: int) returns (r: State)
    requires s.cloth.Valid()
    ensures r.Valid() && r == s.(selected := r.selected)
    ensures r.selected == NO_HANDLE <==> forall h :: IsHandle(h) ==> !Grabs(s.cloth, h, mx, my)
    ensures r.selected != NO_HANDLE ==>
      Grabs(s.cloth, r.selected, mx, my) && forall h :: 0 <= h < r.selected ==> !Grabs(s.cloth, h, mx, my)
  {
    var selected := NO_HANDLE;
    var i := 0;
    while i < 4
      invariant 0 <= i <= 4
      invariant forall h :: 0 <= h < i ==> !Grabs(s.cloth, h, mx, my)
    {
      var v := GetHandlePosition(s.cloth, i);
      if RealAbs(mx as real - v.x) < SELECTION_RANGE as real && RealAbs(my as real - v.y) < SELECTION_RANGE as real {
        selected := i;
        break;
      }
      i := i + 1;
    }
    r := s.(selected := selected);
  }

  /** Throws the selected handle with the mouse's last displacement as its
      velocity, then deselects it. */
  function MouseReleased(s: State, mx: int, my: int, pmx: int, pmy: int): (r: State)
    requires s.cloth.Valid()
    ensures r.Valid() && r.selected == NO_HANDLE
    ensures r.clearFrame == s.clearFrame && r.gravity == s.gravity
    ensures !IsHandle(s.selected) ==> r.cloth == s.cloth
    ensures IsHandle(s.selected) ==>
      && SameExcept(s.cloth, r.cloth, CornerOf(s.cloth.n, s.selected))
      && HandleParticle(r.cloth, s.selected)
         == HandleParticle(s.cloth, s.selected).(vel := Vec3((mx - pmx) as real, (my - pmy) as real, 0.0))
  {
    s.(cloth := SetHandleVelocity(s.cloth, s.selected, (mx - pmx) as real, (my - pmy) as real, 0.0),
       selected := NO_HANDLE)
  }

  /** One frame: a physics step (`advanced` is the grid the engine produces),
      then the selected handle is pinned under the mouse at rest. */
  function Draw(s: State, advanced: Grid, mx: int, my: int): (r: State)
    requires s.cloth.Valid() && Shaped(advanced, s.cloth.n)
    ensures r == s.(cloth := r.cloth) && r.cloth.Valid()
    ensures var stepped := Step(s.cloth, advanced);
      && (!IsHandle(s.selected) ==> r.cloth == stepped)
      && (IsHandle(s.selected) ==>
            && SameExcept(stepped, r.cloth, CornerOf(s.cloth.n, s.selected))
            && HandleParticle(r.cloth, s.selected)
               == HandleParticle(stepped, s.selected).(pos := Vec3(mx as real, my as real, 0.0), vel := ZERO)
            && GetHandlePosition(r.cloth, s.selected) == Vec2(mx as real, my as real))
  {
    var stepped := Step(s.cloth, advanced);
    var moved := SetHandlePosition(stepped, s.selected, mx as real, my as real, 0.0);
    s.(cloth := ClearHandleVelocity(moved, s.selected))
  }

  /** The key handler, testing `key` and `keyCode` in the applet's order:
      '1'..'4' toggle the lock of handles 0..3; UP and DOWN change gravity;
      'z', 'x', 'c', 'v' flip the frame-clearing, handle, outline and mesh
      display options; space zeroes gravity and resets and fixes the corners. */
  function KeyPressed(s: State, key: char, keyCode: int): (r: State)
    requires s.cloth.Valid()
    ensures r.cloth.Valid() && r.selected == s.selected
    ensures r.cloth.n == s.cloth.n && r.cloth.springs == s.cloth.springs
  {
    if '1' <= key <= '4' then
      s.(cloth := ToggleHandle(s.cloth, (key as int) - ('1' as int)))
    else if keyCode == UP then
      var g := s.gravity + GRAVITY_INCREMENT;
      s.(gravity := g, cloth := SetGravity(s.cloth, g))
    else if keyCode == DOWN then
      var g := s.gravity - GRAVITY_INCREMENT;
      s.(gravity := g, cloth := SetGravity(s.cloth, g))
    else if key == 'z' then s.(clearFrame := !s.clearFrame)
    else if key == 'x' then s.(cloth := SetDrawHandles(s.cloth, !GetDrawHandles(s.cloth)))
    else if key == 'c' then s.(cloth := SetDrawOutlines(s.cloth, !GetDrawOutlines(s.cloth)))
    else if key == 'v' then s.(cloth := SetDrawMesh(s.cloth, !GetDrawMesh(s.cloth)))
    else if key == ' ' then s.(gravity := 0.0, cloth := ResetAndFix(s.cloth))
    else s
  }

  /** A digit key flips the lock of exactly its handle. */
  lemma LockKey(s: State, key: char, keyCode: int)
    requires s.cloth.Valid() && s.cloth.n >= 2 && '1' <= key <= '4'
    ensures var r := KeyPressed(s, key, keyCode); var h := (key as int) - ('1' as int);
      && r == s.(cloth := r.cloth) && r.cloth.Valid()
      && SameButFlags(s.cloth, r.cloth)
      && HandleIsFixed(r.cloth, h) == !HandleIsFixed(s.cloth, h)
      && forall g :: IsHandle(g) && g != h ==> HandleIsFixed(r.cloth, g) == HandleIsFixed(s.cloth, g)
  {
    var h := (key as int) - ('1' as int);
    assert KeyPressed(s, key, keyCode) == s.(cloth := ToggleHandle(s.cloth, h));
    CornersDistinct(s.cloth.n);
    forall g | IsHandle(g) && g != h
      ensures HandleIsFixed(KeyPressed(s, key, keyCode).cloth, g) == HandleIsFixed(s.cloth, g)
    {
      OtherHandlesUntouched(s.cloth, h, g, 0.0, 0.0, 0.0);
    }
  }

  /** Pressing a lock key or a display key twice restores the state. */
  lemma ToggleKeyTwice(s: State, key: char, keyCode: int)
    requires s.cloth.Valid()
    requires '1' <= key <= '4' || (keyCode != UP && keyCode != DOWN && key in "zxcv")
    ensures KeyPressed(KeyPressed(s, key, keyCode), key, keyCode) == s
  {
    if '1' <= key <= '4' {
      ToggleTwice(s.cloth, (key as int) - ('1' as int));
    }
  }

  /** Each display key flips exactly one display option. */
  lemma DisplayKeys(s: State, keyCode: int)
    requires s.cloth.Valid() && keyCode != UP && keyCode != DOWN
    ensures KeyPressed(s, 'z', keyCode) == s.(clearFrame := !s.clearFrame)
    ensures KeyPressed(s, 'x', keyCode) == s.(cloth := s.cloth.(drawHandles := !s.cloth.drawHandles))
    ensures KeyPressed(s, 'c', keyCode) == s.(cloth := s.cloth.(drawOutlines := !s.cloth.drawOutlines))
    ensures KeyPressed(s, 'v', keyCode) == s.(cloth := s.cloth.(drawMesh := !s.cloth.drawMesh))
  {
  }

  /** UP and DOWN move gravity by one increment and hand the new value to the
      cloth; they undo each other. */
  lemma GravityKeys(s: State, key: char)
    requires s.cloth.Valid() && !('1' <= key <= '4')
    ensures KeyPressed(s, key, UP).gravity == s.gravity + GRAVITY_INCREMENT
    ensures KeyPressed(s, key, UP).cloth.gravity == KeyPressed(s, key, UP).gravity
    ensures KeyPressed(s, key, DOWN).gravity == s.gravity - GRAVITY_INCREMENT
    ensures KeyPressed(s, key, DOWN).cloth.gravity == KeyPressed(s, key, DOWN).gravity
    ensures s.cloth.gravity == s.gravity ==> KeyPressed(KeyPressed(s, key, UP), key, DOWN) == s
  {
  }

  /** Space zeroes gravity and puts the four corners at their home positions,
      fixed; no other particle changes, and neither do the selection and
      the frame-clearing option. */
  lemma SpaceKey(s: State, keyCode: int)
    requires s.cloth.Valid() && keyCode != UP && keyCode != DOWN
    ensures var r := KeyPressed(s, ' ', keyCode);
      && r == s.(gravity := 0.0, cloth := r.cloth)
      && r.cloth == s.cloth.(gravity := 0.0, grid := r.cloth.grid)
      && (s.cloth.n >= 2 ==> forall h :: IsHandle(h) ==>
            HandleParticle(r.cloth, h) == HandleParticle(s.cloth, h).(pos := HomePosition(s.cloth, h), fixed := true))
      && (s.cloth.n == 1 ==>
            r.cloth.grid[0][0] == s.cloth.grid[0][0].(pos := HomePosition(s.cloth, BOTTOM_RIGHT), fixed := true))
      && forall i, j :: 0 <= i < s.cloth.n && 0 <= j < s.cloth.n && !IsCorner(s.cloth.n, i, j) ==>
           r.cloth.grid[i][j] == s.cloth.grid[i][j]
  {
  }
}
